=== FILE: README.md ===
# Oracle SOCKS5 relay injector — a Dafny model

The desktop tool deploys a small SOCKS5 relay into an Oracle database's embedded Java runtime and
later tears it down. This project models its control logic and the relay's handshake as
functions and side-effect-free methods over strings and byte sequences, with every database call replaced by a supplied outcome:

- **Text**, **Decimal**, **SqlQuote** (`common.dfy`, `text.dfy`, `decimal.dfy`, `sqlquote.dfy`):
  Java's `trim`, ASCII case mapping, `contains`, `replace(CharSequence, CharSequence)` with a one-char target and `%d`; SQL string
  literals, with quote doubling and a reader for the literal the database sees.
- **Version** (`version.dfy`): `parseVersion` and `buildJdbcUrl`, with a reader for connection
  strings.
- **Statements** (`statements.dfy`): the client identifier, the `SET_IDENTIFIER` block, the six
  `GRANT_PERMISSION` blocks and the `KILL SESSION` order, each read back by a literal-aware reader.
- **Termination** (`termination.dfy`): `stop`, `killProxySession`, the three-attempt retry loop with
  its pauses and the thread's interrupt flag, `attemptTermination` and `verifySessionTerminated`.
- **Deploy** (`deploy.dfy`): `inject` as the sequence of remote calls it makes and the outcome it
  reports, and the compile check with its diagnostic text.
- **Socks5** (`socks5.dfy`): the relay's `handleConnection` up to the success reply, checked
  against a client-side encoder (sections 3 to 6 of RFC 1928).
- **Frame** (`frame.dfy`): the connection form's validator, the naming flag, and the
  `isConnected` flag with the controls it enables.

Behaviour worth noting:
- a one-second pause follows every failed kill attempt, including the third;
- `stop` leaves the control connection open when the session lookup throws;
- `inject` treats the proxy as started only once the start call has returned, so only a failing
  commit is still reported as success, provided the rollback and the auto-commit reset succeed;
- the deployed relay class has no way to stop: `running` starts false and only `start` sets it,
  to true. The relay ends only when its database session is killed.

## Model

| member | source | states |
|---|---|---|
| Text.Trim | src/main/java/com/demo/MainFrame.java:190-194 | The trimmed field has no char at or below U+0020 at either end. Only such chars are cut from either side of the original. |
| Text.TrimEmptyIffBlank | src/main/java/com/demo/MainFrame.java:432-435 | A field is empty after `trim` exactly when every char of it is at or below U+0020. |
| Text.Contains | src/main/java/com/demo/SocksInjector.java:188-190 | The index scan used by `contains` finds the needle iff it occurs somewhere in the text. |
| Decimal.FormatIntRoundTrip | src/main/java/com/demo/SocksInjector.java:162-165 | Every integer printed with `%d` parses back to itself. |
| SqlQuote.EscapeOnlyDoublesQuotes | src/main/java/com/demo/SocksInjector.java:44 | Escaping doubles each quote and leaves every other char, in order, unchanged. |
| SqlQuote.UnescapeEscape | src/main/java/com/demo/SocksInjector.java:205 | Un-doubling the escaped text gives back the original. |
| SqlQuote.EscapeWellQuoted | src/main/java/com/demo/SocksInjector.java:226 | Escaped text has no unpaired quote. |
| SqlQuote.EscapedLiteralReadsBack | src/main/java/com/demo/SocksInjector.java:42-45 | Escaped text closed by a quote reads back through SQL literal rules as exactly the original, and the reader stops at that closing quote. |
| Version.ParseVersionClassifies | src/main/java/com/demo/SocksInjector.java:185-192 | Every banner gets one of four tags. Matching ignores case, and "11g" wins over "12c", which wins over "19c"/"21c". Both directions of each case are stated. |
| Version.ParseVersionIgnoresCase | src/main/java/com/demo/SocksInjector.java:187 | Upper- or lower-casing the banner never changes the tag. |
| Version.ElevenGWinsOverTwentyOneC | src/main/java/com/demo/SocksInjector.java:188-190 | A banner naming both 21c and 11G is tagged 11g. |
| Version.NineteenCBanner | src/main/java/com/demo/SocksInjector.java:190 | A 19c banner is tagged 19c+. |
| Version.JdbcUrlRoundTrip | src/main/java/com/demo/SocksInjector.java:194-202 | For a host and port without ':' or '/', the connection string reads back as the same host, port and service. Its form is SID for an 11g version and otherwise follows the naming flag. |
| Version.ConnectUrlFollowsFlag | src/main/java/com/demo/SocksInjector.java:37 | The first connection passes "unknown" as the version, so the naming flag alone picks the form. |
| Statements.SetIdentifierReadsBack | src/main/java/com/demo/SocksInjector.java:40-49 | The `SET_IDENTIFIER` block reads back as exactly the identifier, whatever quotes it holds. |
| Statements.GrantStatementReadsBack | src/main/java/com/demo/SocksInjector.java:205-215 | The first argument of a grant block reads back as the upper-cased user, whatever quotes the name holds. Class, target and actions read back too when they hold no quote. |
| Statements.GrantPermissionsReadBack | src/main/java/com/demo/SocksInjector.java:204-223 | For a host without quotes, the six grant blocks are read back in order as the six required permissions. The first one's target is the host with escaped dots and the proxy port. |
| Statements.KillStatementReadsBack | src/main/java/com/demo/SocksInjector.java:161-165 | The kill order names exactly the `(sid, serial#)` it was built for. |
| Statements.ClientIdentifier | src/main/java/com/demo/SocksInjector.java:28 | The tag starts with `SOCKS5_PROXY_`, and the supplied UUID text is recovered from what follows. |
| Version.ParseVersionNames | src/main/java/com/demo/SocksInjector.java:185-192 | The returned string is always one of "11g", "12c", "19c+" and "unknown". A missing banner gives "unknown", and distinct tags have distinct strings. |
| Termination.AttemptTermination | src/main/java/com/demo/SocksInjector.java:161-183 | An attempt succeeds only if the kill executes and the follow-up lookup runs and finds no row. A raising kill statement is the exception case. |
| Termination.TerminateSessionWithRetry | src/main/java/com/demo/SocksInjector.java:135-159 | At most three attempts, stopping at the first success. The result is true iff some attempt made succeeded, and every earlier attempt failed. A pause follows every failed attempt, the third included. Stopping early without success means an interrupt, which sets the flag. |
| Termination.GoneAfterSecondAttempt | src/main/java/com/demo/SocksInjector.java:139-156 | When the first attempt still finds the session and the second finds it gone, the loop returns true after two attempts and one pause, and the third attempt never runs. |
| Termination.KillListed | src/main/java/com/demo/SocksInjector.java:121-131 | Every listed session gets its own retry run, in order, even after an earlier one succeeded. The result is true iff some run succeeded. |
| Termination.KillProxySession | src/main/java/com/demo/SocksInjector.java:115-133 | A raising lookup gives no result. Otherwise there is one run per tagged session, and no session means false. |
| Termination.Stop | src/main/java/com/demo/SocksInjector.java:100-113 | With no open connection it returns false and issues no lookup. A raising lookup gives false and leaves the connection open. Otherwise it closes the connection and returns true iff some kill run succeeded. |
| Deploy.CheckCompilationStatus | src/main/java/com/demo/SocksInjector.java:380-387 | The check passes iff the catalog query returns no row or its first row's status is "VALID". On failure the message is the prefix followed by the diagnostic text. Query failures are kept distinct. |
| Deploy.NonValidStatusFails | src/main/java/com/demo/SocksInjector.java:383-384 | A missing status or any status but "VALID" fails with the full diagnostic text. |
| Deploy.CompilationErrorsReadBack | src/main/java/com/demo/SocksInjector.java:389-401 | When no message spans lines, the text splits back into one `Line l-p: text` line per diagnostic, in query order, none dropped. |
| Deploy.InjectStartedIff | src/main/java/com/demo/SocksInjector.java:76-98 | `inject` reports success iff auto-commit was switched off and back on and every step through the start call succeeded. The commit must also succeed, or else the rollback that follows a failed commit does. |
| Deploy.InjectRaisesStepFault | src/main/java/com/demo/SocksInjector.java:88-94 | A step failing before the start call rolls back and rethrows that step's fault. |
| Deploy.InjectCallsInOrder | src/main/java/com/demo/SocksInjector.java:79-96 | Calls run in a fixed order, each at most once: auto-commit off first, then the grants in list order, the upload and check, the procedure, the start and the commit. A rollback comes next if needed, and auto-commit back on is always last. |
| Deploy.InjectCallsWhenStepsSucceed | src/main/java/com/demo/SocksInjector.java:81-87 | When every step succeeds, the calls are exactly the six grants, the upload, the status check, the procedure, the start and the commit. A rollback follows only if the commit fails. |
| Deploy.InjectRollsBackIff | src/main/java/com/demo/SocksInjector.java:88-89 | A rollback is issued iff the transaction was opened and some step or the commit failed. |
| Socks5.ParseConnection | src/main/java/com/demo/SocksInjector.java:305-320 | A first byte other than 5 is a version mismatch whatever follows, and nothing else is one. A method count of 128 or more reads as negative and fails. |
| Socks5.HandleConnection | src/main/java/com/demo/SocksInjector.java:297-350 | `running` is false only before `start` runs, since nothing clears it; then nothing is written. A wrong version gets `05 FF`. A greeting cut short writes nothing. Once the greeting is complete, a failing request or connect closes after exactly `05 00`. Relaying happens iff the request parses and the connect succeeds, after `05 00` and the success reply. |
| Socks5.SuccessReplyReadsBack | src/main/java/com/demo/SocksInjector.java:345-349 | The reply is `05 00 00 01 00 00 00 00 hi lo`, with `hi * 256 + lo` the outbound socket's local port. |
| Socks5.ConnectionRoundTrip | src/main/java/com/demo/SocksInjector.java:312-341 | A request encoded by a client reads back as the same request, its version, command and reserved bytes unchecked. This holds when the client offers fewer than 128 methods and names a short enough domain. The port is big-endian. |
| Socks5.ManyMethodsDropped | src/main/java/com/demo/SocksInjector.java:312-313 | A greeting offering 128 or more methods closes the connection with no reply. |
| Socks5.LongDomainNameDropped | src/main/java/com/demo/SocksInjector.java:331-333 | A domain name of 128 bytes or more closes the connection after `05 00` with no further reply. |
| Socks5.OtherAddressTypeDropped | src/main/java/com/demo/SocksInjector.java:325-338 | An address type other than 1 or 3 closes the connection after `05 00` with no further reply. |
| Socks5.BareGreetingAnswered | src/main/java/com/demo/SocksInjector.java:305-315 | `05 01 00` is answered `05 00`. |
| Socks5.ConnectLoopbackAnswered | src/main/java/com/demo/SocksInjector.java:325-349 | A CONNECT to 127.0.0.1 port 80 that reaches its target relays to that destination. The client reads `05 00` followed by a reply starting `05 00 00 01`. |
| Frame.ValidateConnectionInputs | src/main/java/com/demo/MainFrame.java:431-443 | A blank host, port, service or user is reported as a missing field, before anything else. Otherwise a SID whose trimmed text exceeds 8 UTF-16 units is too long. Both are stated as iff. |
| Frame.ValidationIgnoresPasswordAndServiceNameLength | src/main/java/com/demo/MainFrame.java:439-442 | The password never affects validation, and a service name is never too long. |
| Frame.NineCharacterSidRefused | src/main/java/com/demo/MainFrame.java:439-441 | A nine-character SID is refused. |
| Frame.NineCharacterServiceNameAccepted | src/main/java/com/demo/MainFrame.java:431-443 | The same nine characters as a service name pass. |
| Frame.ConnectionUrlReadsBack | src/main/java/com/demo/MainFrame.java:190-197 | For a trimmed host and port without ':' or '/', the trimmed host, port and service read back from the connection string. It uses the service-name form iff "service name" was selected. |
| Frame.ButtonStates | src/main/java/com/demo/MainFrame.java:406-413 | Stop is always enabled. Start and the port field move together, and login is their opposite. Disconnected, the controls are exactly those of the panel as built at MainFrame.java lines 141-143, and connected they differ from it. |
| Frame.Step | src/main/java/com/demo/MainFrame.java:219-235 | A `done` handler never clears the flag. It sets the flag only when the login worker returned true, and always does then. After it, login is enabled iff not connected. |
| Frame.RunConnectedIffLoginSucceeded | src/main/java/com/demo/MainFrame.java:40 | Starting from the panel as built, the client is connected iff some login returned true. After every `done` handler, the controls match the flag. |
| Frame.ConnectedStays | src/main/java/com/demo/MainFrame.java:222-224 | Once connected, the client stays connected whatever happens next. |

## Left out

- Database calls are not executed: each statement's outcome is a supplied value. These are the
  JDBC connection, `SET_IDENTIFIER`, the privilege and banner queries, the grants, the LOB upload,
  the catalog queries, `CREATE PROCEDURE`, the start call, the kill order and the session lookups.
- The constructor's flow and `verifyPrivileges`/`checkDBAPrivilege` are left out, because they
  only chain remote calls. The statement it builds and its version parse are modelled.
- `UUID.randomUUID` is a parameter of `ClientIdentifier`. `Thread.sleep` is counted as pauses, and
  an interrupt is a supplied per-pause outcome.
- Version.JdbcUrlRoundTrip: the read-back is stated only for a host and port without ':' or '/'.
  The code accepts any trimmed host, and with an IPv6 literal such as `::1` the string it builds no
  longer splits back into the same host and port.
- Frame.ConnectionUrlReadsBack: the same restriction on the trimmed host and port, for the same
  reason.
- Termination.KillListed: a session-cursor failure in the middle of the loop is not modelled. Such
  a failure would make `stop` return false after earlier runs had already gone ahead.
- Termination.Stop: a failure of `isClosed()` or of closing the connection is not modelled.
- Deploy.InjectRaisesStepFault: names the fault `RunSteps` reports, not a separate list of which
  step it belongs to. `RunSteps` checks the steps in source order.
- Deploy.GrantCalls: a raising `createStatement()` (src/main/java/com/demo/SocksInjector.java:218)
  and a raising close of that statement after the six grants are not modelled separately. The
  model lists at least one grant call in the first case and six successful grants in the second.
  The outcome is the same either way: rollback, then the fault is raised again.
- The SQL text of the upload block, the procedure and the start call is not modelled, because those
  calls only pass data through. Only the quote escaping of the uploaded source is modelled.
- The whitespace collapsing at src/main/java/com/demo/SocksInjector.java:227-228 is left out,
  because its result depends on Java's regular-expression semantics.
- The relay runtime is left out because it is threads and socket I/O. This covers `start`, the
  accept loop with its backoff, the per-connection threads and `forward` inside the deployed
  class.
- Name resolution and the 10-second outbound connect are one supplied outcome. The code resolves a
  domain name before reading the port, and either failure closes the socket after `05 00`, so the
  order is not modelled.
- Socks5.ParseConnection: the charset conversion of a domain name (`new String(domain)`) is not
  modelled; the name is kept as bytes.
- A diagnostic row with a null text (printed as "null") is not modelled, so texts are plain
  strings.
- Text.Lower and Text.Upper map only ASCII letters, and Decimal.FormatInt writes ASCII digits: the
  model assumes a default locale with ASCII digits and ASCII-only case mapping. Java's
  `toLowerCase`, `toUpperCase` and `String.format("%d")` follow the default locale. Under a Turkish
  locale `i` upper-cases to a dotted capital I; `ß` upper-cases to `SS` everywhere; and an Arabic or
  Persian locale prints non-ASCII digits into the kill and grant statements. The version needles
  are ASCII, but the user name that is upper-cased is free text from the form.
- Frame.Step: only the `done` handlers are modelled. A click disables the login button (MainFrame.java
  line 178) or the start button (line 241) until its worker's `done` handler runs, so while a worker
  runs the controls differ from those derived from the flag.
- The Swing layout, styling, dialogs, timestamped log, and threading of the background workers are
  left out. So are the start and stop handlers' log messages; they do not change `isConnected`.

=== FILE: common.dfy ===
/** Small shared vocabulary: an optional value and an 8-bit unsigned byte. */
module Common {

  /** A value that may be absent; it stands for Java's `null` and for "no row". */
  datatype Option<+T> = None | Some(value: T)

  /** An unsigned octet as it travels on a socket. */
  newtype byte = x: int | 0 <= x < 0x100

  /** The low eight bits of a non-negative integer, as a Java `(byte)` cast keeps them. */
  function Low8(x: nat): (b: byte)
    ensures b as int == x % 0x100
  {
    (x % 0x100) as byte
  }
}

=== FILE: decimal.dfy ===
/** Java's `%d` rendering of an integer, and a reader that recovers the integer from it. */
module Decimal {
  import opened Common

  predicate IsDigit(c: char) {
    '0' <= c <= '9'
  }

  predicate AllDigits(s: string) {
    forall i :: 0 <= i < |s| ==> IsDigit(s[i])
  }

  function DigitChar(d: nat): (c: char)
    requires d < 10
    ensures IsDigit(c)
  {
    ('0' as int + d) as char
  }

  function DigitValue(c: char): (d: nat)
    requires IsDigit(c)
    ensures d < 10
  {
    c as int - '0' as int
  }

  /** Shortest base-ten numeral of `n`: only digits, never a leading zero unless `n` is 0. */
  function NatString(n: nat): (s: string)
    ensures |s| >= 1 && AllDigits(s)
    ensures |s| > 1 ==> s[0] != '0'
    decreases n
  {
    if n < 10 then [DigitChar(n)] else NatString(n / 10) + [DigitChar(n % 10)]
  }

  /** The number a run of digits denotes, most significant digit first. */
  function NatValue(s: string): nat
    requires AllDigits(s)
  {
    if s == [] then 0 else 10 * NatValue(s[..|s| - 1]) + DigitValue(s[|s| - 1])
  }

  lemma {:induction false} NatStringRoundTrip(n: nat)
    ensures NatValue(NatString(n)) == n
    decreases n
  {
    if n >= 10 {
      var s := NatString(n);
      assert s[..|s| - 1] == NatString(n / 10);
      NatStringRoundTrip(n / 10);
    }
  }

  /** `String.format("%d", i)`: a minus sign before the magnitude of a negative value. */
  function FormatInt(i: int): (s: string)
    ensures |s| >= 1
    ensures forall k :: 0 <= k < |s| ==> IsDigit(s[k]) || s[k] == '-'
  {
    if i < 0 then "-" + NatString(-i) else NatString(i)
  }

  /** Reads an optionally negative decimal numeral; anything else is `None`. */
  function ParseInt(s: string): (r: Option<int>)
  {
    if |s| >= 2 && s[0] == '-' && AllDigits(s[1..]) then Some(-(NatValue(s[1..]) as int))
    else if |s| >= 1 && AllDigits(s) then Some(NatValue(s))
    else None
  }

  lemma FormatIntRoundTrip(i: int)
    ensures ParseInt(FormatInt(i)) == Some(i)
  {
    if i < 0 {
      assert FormatInt(i)[1..] == NatString(-i);
      NatStringRoundTrip(-i);
    } else {
      NatStringRoundTrip(i);
    }
  }
}

=== FILE: deploy.dfy ===
/** Deploying the relay: the compile check with its diagnostics text, and `inject`, which runs the
    grant, compile, create-procedure and start steps inside one transaction. Each remote call's
    outcome is supplied by the caller. */
module Deploy {
  import opened Common
  import opened Text
  import opened Decimal
  import opened Statements

  /** One row of the compiler's error view: line, position and message. */
  datatype Diagnostic = Diagnostic(line: int, position: int, text: string)

  /** `Line l-p: text`, the line written for one diagnostic, without its newline. */
  function DiagnosticText(d: Diagnostic): string {
    "Line " + FormatInt(d.line) + "-" + FormatInt(d.position) + ": " + d.text
  }

  /** `getCompilationErrors`: one newline-terminated line per diagnostic row, in query order. */
  function CompilationErrors(ds: seq<Diagnostic>): string {
    if ds == [] then [] else DiagnosticText(ds[0]) + "\n" + CompilationErrors(ds[1..])
  }

  /** Splits a text into its newline-terminated lines; an unterminated tail is a last line. */
  function Lines(s: string): seq<string>
    decreases |s|
  {
    match SplitFirst(s, '\n')
    case None => if s == [] then [] else [s]
    case Some(p) => [p.0] + Lines(p.1)
  }

  lemma DiagnosticTextOneLine(d: Diagnostic)
    requires '\n' !in d.text
    ensures '\n' !in DiagnosticText(d)
  {
    var a := FormatInt(d.line);
    var b := FormatInt(d.position);
    assert forall k :: 0 <= k < |a| ==> a[k] != '\n' by {
      forall k | 0 <= k < |a| ensures a[k] != '\n' { assert IsDigit(a[k]) || a[k] == '-'; }
    }
    assert forall k :: 0 <= k < |b| ==> b[k] != '\n' by {
      forall k | 0 <= k < |b| ensures b[k] != '\n' { assert IsDigit(b[k]) || b[k] == '-'; }
    }
  }

  /** The per-diagnostic lines, in query order. */
  function DiagnosticTexts(ds: seq<Diagnostic>): (ts: seq<string>)
    ensures |ts| == |ds|
  {
    seq(|ds|, i requires 0 <= i < |ds| => DiagnosticText(ds[i]))
  }

  lemma DiagnosticTextsCons(ds: seq<Diagnostic>)
    requires ds != []
    ensures DiagnosticTexts(ds) == [DiagnosticText(ds[0])] + DiagnosticTexts(ds[1..])
  {
    var l := DiagnosticTexts(ds);
    var r := [DiagnosticText(ds[0])] + DiagnosticTexts(ds[1..]);
    forall i | 0 <= i < |ds|
      ensures l[i] == r[i]
    {
      if i > 0 { assert r[i] == DiagnosticTexts(ds[1..])[i - 1]; }
    }
  }

  /** When no message spans lines, the error text splits back into exactly one line per
      diagnostic, in query order: none is dropped, merged or reordered. */
  lemma {:induction false} CompilationErrorsReadBack(ds: seq<Diagnostic>)
    requires forall i :: 0 <= i < |ds| ==> '\n' !in ds[i].text
    ensures Lines(CompilationErrors(ds)) == DiagnosticTexts(ds)
    decreases |ds|
  {
    if ds != [] {
      var first := DiagnosticText(ds[0]);
      var rest := CompilationErrors(ds[1..]);
      DiagnosticTextOneLine(ds[0]);
      assert forall i :: 0 <= i < |ds[1..]| ==> '\n' !in ds[1..][i].text by {
        forall i | 0 <= i < |ds[1..]| ensures '\n' !in ds[1..][i].text { assert ds[1..][i] == ds[i + 1]; }
      }
      CompilationErrorsReadBack(ds[1..]);
      assert CompilationErrors(ds) == first + ['\n'] + rest;
      SplitFirstAt(first, '\n', rest);
      assert Lines(CompilationErrors(ds)) == [first] + Lines(rest);
      DiagnosticTextsCons(ds);
    } else {
      assert DiagnosticTexts(ds) == [];
    }
  }

  /** Result of the catalog query for the compiled class's status: its rows' status values. */
  datatype StatusQuery = StatusRaised | StatusRows(statuses: seq<Option<string>>)

  /** Result of the query for the compiler's diagnostics. */
  datatype DiagnosticsQuery = DiagnosticsRaised | DiagnosticsRows(rows: seq<Diagnostic>)

  datatype CompileFault = StatusQueryFailed | DiagnosticsQueryFailed | Invalid(message: string)

  /** Prefix of the compile-failure message ("Java class compilation failed: "). */
  const InvalidPrefix: string := "Java类编译失败: "

  /** Only the first catalog row is looked at; no row at all passes the check. */
  predicate StatusAccepted(statuses: seq<Option<string>>) {
    |statuses| == 0 || statuses[0] == Some("VALID")
  }

  /** `checkCompilationStatus`: `None` when the check passes, else the fault it raises. */
  function CheckCompilationStatus(status: StatusQuery, diagnostics: DiagnosticsQuery): (r: Option<CompileFault>)
    ensures r.None? <==> status.StatusRows? && StatusAccepted(status.statuses)
    ensures r == Some(StatusQueryFailed) <==> status == StatusRaised
    ensures r == Some(DiagnosticsQueryFailed) <==>
              status.StatusRows? && !StatusAccepted(status.statuses) && diagnostics == DiagnosticsRaised
    ensures r.Some? && r.value.Invalid? ==>
              diagnostics.DiagnosticsRows? && r.value.message == InvalidPrefix + CompilationErrors(diagnostics.rows)
  {
    match status
    case StatusRaised => Some(StatusQueryFailed)
    case StatusRows(statuses) =>
      if StatusAccepted(statuses) then None
      else
        match diagnostics
        case DiagnosticsRaised => Some(DiagnosticsQueryFailed)
        case DiagnosticsRows(rows) => Some(Invalid(InvalidPrefix + CompilationErrors(rows)))
  }

  /** A row whose status is missing or anything but "VALID" fails the check. */
  lemma NonValidStatusFails(s: Option<string>, rest: seq<Option<string>>, rows: seq<Diagnostic>)
    requires s != Some("VALID")
    ensures CheckCompilationStatus(StatusRows([s] + rest), DiagnosticsRows(rows))
            == Some(Invalid(InvalidPrefix + CompilationErrors(rows)))
  {
  }

  /** A remote call `inject` makes, in the order it makes them. */
  datatype Call =
    | AutoCommit(on: bool)
    | Grant(index: nat, sql: string)
    | UploadSource
    | StatusCheck
    | DiagnosticsFetch
    | CreateProcedure
    | StartService(port: int)
    | Commit
    | Rollback

  /** The outcomes `inject`'s remote calls meet. `failingGrant` is the index of the first grant
      statement that raises, if any; each `bool` says whether that call succeeds. */
  datatype InjectScript = InjectScript(
    autoCommitOff: bool,
    failingGrant: Option<nat>,
    upload: bool,
    status: StatusQuery,
    diagnostics: DiagnosticsQuery,
    procedure: bool,
    start: bool,
    commit: bool,
    rollback: bool,
    autoCommitOn: bool)

  datatype Fault =
    | AutoCommitFault(on: bool)
    | GrantFault(index: nat)
    | CompilationFault(cause: CompileFault)
    | UploadFault
    | ProcedureFault
    | StartFault
    | CommitFault
    | RollbackFault

  /** `inject` either returns true or raises. */
  datatype InjectResult = Started | Raised(fault: Fault)

  datatype InjectRun = InjectRun(result: InjectResult, calls: seq<Call>)

  /** The work inside the transaction: its calls, its first fault, and whether the start call
      returned before that fault. */
  datatype StepsRun = StepsRun(calls: seq<Call>, fault: Option<Fault>, started: bool)

  const GrantCount: nat := 6

  /** The grant statement that raises, if it is one of the six. */
  function GrantFailure(s: InjectScript): Option<nat> {
    if s.failingGrant.Some? && s.failingGrant.value < GrantCount then s.failingGrant else None
  }

  /** The grant calls made: all six, or those up to and including the one that raises. */
  function GrantCalls(s: InjectScript, user: string, host: string, proxyPort: int): (calls: seq<Call>)
    ensures |calls| <= GrantCount
    ensures forall i :: 0 <= i < |calls| ==> calls[i] == Grant(i, GrantPermissions(user, host, proxyPort)[i])
  {
    var stmts := GrantPermissions(user, host, proxyPort);
    var n := match GrantFailure(s) case Some(k) => k + 1 case None => GrantCount;
    seq(n, i requires 0 <= i < n => Grant(i, stmts[i]))
  }

  /** The compile check's calls: the status query, and the diagnostics query when it fails. */
  function CheckCalls(status: StatusQuery): seq<Call> {
    if status.StatusRows? && !StatusAccepted(status.statuses) then [StatusCheck, DiagnosticsFetch]
    else [StatusCheck]
  }

  /** grant, then compile (upload and check), then create the procedure, then start, then commit. */
  function RunSteps(s: InjectScript, user: string, host: string, proxyPort: int): StepsRun {
    var grants := GrantCalls(s, user, host, proxyPort);
    if GrantFailure(s).Some? then StepsRun(grants, Some(GrantFault(GrantFailure(s).value)), false)
    else if !s.upload then StepsRun(grants + [UploadSource], Some(UploadFault), false)
    else
      var compiled := grants + [UploadSource] + CheckCalls(s.status);
      match CheckCompilationStatus(s.status, s.diagnostics)
      case Some(f) => StepsRun(compiled, Some(CompilationFault(f)), false)
      case None =>
        var created := compiled + [CreateProcedure];
        if !s.procedure then StepsRun(created, Some(ProcedureFault), false)
        else
          var launched := created + [StartService(proxyPort)];
          if !s.start then StepsRun(launched, Some(StartFault), false)
          else if !s.commit then StepsRun(launched + [Commit], Some(CommitFault), true)
          else StepsRun(launched + [Commit], None, true)
  }

  /** `inject`: auto-commit off, the steps, a rollback on any fault (returning true anyway when
      the start call had returned), and auto-commit back on at every exit. A failing rollback or
      a failing final auto-commit call raises in place of whatever came before. */
  function Inject(s: InjectScript, user: string, host: string, proxyPort: int): InjectRun {
    var body := InjectBody(s, user, host, proxyPort);
    InjectRun(if s.autoCommitOn then body.1 else Raised(AutoCommitFault(true)),
              [AutoCommit(false)] + body.0 + [AutoCommit(true)])
  }

  /** What happens between switching auto-commit off and switching it back on. */
  function InjectBody(s: InjectScript, user: string, host: string, proxyPort: int): (seq<Call>, InjectResult) {
    if !s.autoCommitOff then ([], Raised(AutoCommitFault(false)))
    else
      var st := RunSteps(s, user, host, proxyPort);
      match st.fault
      case None => (st.calls, Started)
      case Some(f) =>
        if !s.rollback then (st.calls + [Rollback], Raised(RollbackFault))
        else if st.started then (st.calls + [Rollback], Started)
        else (st.calls + [Rollback], Raised(f))
  }

  /** Every step up to and including the start call succeeds. */
  predicate StepsSucceed(s: InjectScript) {
    GrantFailure(s).None? && s.upload && s.status.StatusRows? && StatusAccepted(s.status.statuses)
      && s.procedure && s.start
  }

  /** `inject` returns true exactly when every step through the start call succeeds and the
      transaction either commits or, failing that, rolls back cleanly, with auto-commit switched
      off before and back on after. A commit failure after a successful start still returns true. */
  lemma InjectStartedIff(s: InjectScript, user: string, host: string, proxyPort: int)
    ensures Inject(s, user, host, proxyPort).result == Started <==>
              s.autoCommitOff && s.autoCommitOn && StepsSucceed(s) && (s.commit || s.rollback)
  {
    if s.autoCommitOff {
      var st := RunSteps(s, user, host, proxyPort);
      assert st.started <==> StepsSucceed(s);
      assert st.fault.None? <==> StepsSucceed(s) && s.commit;
    }
  }

  /** A failing step before the start call rolls the transaction back and raises that step's
      fault, provided the rollback and the final auto-commit call themselves succeed. */
  lemma InjectRaisesStepFault(s: InjectScript, user: string, host: string, proxyPort: int)
    requires s.autoCommitOff && s.rollback && s.autoCommitOn && !StepsSucceed(s)
    ensures var st := RunSteps(s, user, host, proxyPort);
      st.fault.Some? && Inject(s, user, host, proxyPort).result == Raised(st.fault.value)
    ensures Rollback in Inject(s, user, host, proxyPort).calls
  {
    var st := RunSteps(s, user, host, proxyPort);
    assert !st.started && st.fault.Some?;
    var calls := Inject(s, user, host, proxyPort).calls;
    assert calls == [AutoCommit(false)] + (st.calls + [Rollback]) + [AutoCommit(true)];
    assert calls[|calls| - 2] == Rollback;
  }

  /** Position of each call in the fixed order of `inject`. */
  function Rank(c: Call): nat {
    match c
    case AutoCommit(on) => if on then GrantCount + 8 else 0
    case Grant(i, _) => 1 + i
    case UploadSource => GrantCount + 1
    case StatusCheck => GrantCount + 2
    case DiagnosticsFetch => GrantCount + 3
    case CreateProcedure => GrantCount + 4
    case StartService(_) => GrantCount + 5
    case Commit => GrantCount + 6
    case Rollback => GrantCount + 7
  }

  /** Every call comes strictly later in that order than all calls made before it. */
  ghost predicate InOrder(calls: seq<Call>) {
    forall i, j :: 0 <= i < j < |calls| ==> Rank(calls[i]) < Rank(calls[j])
  }

  ghost predicate RanksWithin(calls: seq<Call>, lo: nat, hi: nat) {
    forall i :: 0 <= i < |calls| ==> lo <= Rank(calls[i]) < hi
  }

  lemma InOrderAppend(a: seq<Call>, b: seq<Call>, lo: nat, mid: nat, hi: nat)
    requires lo <= mid <= hi
    requires InOrder(a) && InOrder(b) && RanksWithin(a, lo, mid) && RanksWithin(b, mid, hi)
    ensures InOrder(a + b) && RanksWithin(a + b, lo, hi)
  {
    var c := a + b;
    forall i | 0 <= i < |c| ensures lo <= Rank(c[i]) < hi {
      if i < |a| { assert c[i] == a[i]; } else { assert c[i] == b[i - |a|]; }
    }
    forall i, j | 0 <= i < j < |c| ensures Rank(c[i]) < Rank(c[j]) {
      if j < |a| {
        assert c[i] == a[i] && c[j] == a[j];
      } else if i >= |a| {
        assert c[i] == b[i - |a|] && c[j] == b[j - |a|];
      } else {
        assert c[i] == a[i] && c[j] == b[j - |a|];
      }
    }
  }

  lemma GrantCallsInOrder(s: InjectScript, user: string, host: string, proxyPort: int)
    ensures InOrder(GrantCalls(s, user, host, proxyPort))
    ensures RanksWithin(GrantCalls(s, user, host, proxyPort), 1, GrantCount + 1)
  {
  }

  lemma RunStepsInOrder(s: InjectScript, user: string, host: string, proxyPort: int)
    ensures InOrder(RunSteps(s, user, host, proxyPort).calls)
    ensures RanksWithin(RunSteps(s, user, host, proxyPort).calls, 1, GrantCount + 7)
  {
    var g := GrantCount;
    var grants := GrantCalls(s, user, host, proxyPort);
    GrantCallsInOrder(s, user, host, proxyPort);
    if GrantFailure(s).None? {
      InOrderAppend(grants, [UploadSource], 1, g + 1, g + 2);
      if s.upload {
        var checks := CheckCalls(s.status);
        assert InOrder(checks) && RanksWithin(checks, g + 2, g + 4);
        InOrderAppend(grants + [UploadSource], checks, 1, g + 2, g + 4);
        var compiled := grants + [UploadSource] + checks;
        if CheckCompilationStatus(s.status, s.diagnostics).None? {
          InOrderAppend(compiled, [CreateProcedure], 1, g + 4, g + 5);
          InOrderAppend(compiled + [CreateProcedure], [StartService(proxyPort)], 1, g + 5, g + 6);
          InOrderAppend(compiled + [CreateProcedure] + [StartService(proxyPort)], [Commit], 1, g + 6, g + 7);
        }
      }
    }
  }

  /** The calls of `inject` follow its fixed order: auto-commit off first, then the grants in list
      order, the upload, the compile check, the procedure, the start call, the commit, the
      rollback, and auto-commit back on last, each at most once and any of them possibly cut off. */
  lemma InjectCallsInOrder(s: InjectScript, user: string, host: string, proxyPort: int)
    ensures var calls := Inject(s, user, host, proxyPort).calls;
      && calls[0] == AutoCommit(false) && calls[|calls| - 1] == AutoCommit(true)
      && InOrder(calls)
  {
    var g := GrantCount;
    var body := InjectBody(s, user, host, proxyPort).0;
    InjectBodyInOrder(s, user, host, proxyPort);
    InOrderAppend([AutoCommit(false)], body, 0, 1, g + 8);
    InOrderAppend([AutoCommit(false)] + body, [AutoCommit(true)], 0, g + 8, g + 9);
  }

  lemma InjectBodyInOrder(s: InjectScript, user: string, host: string, proxyPort: int)
    ensures InOrder(InjectBody(s, user, host, proxyPort).0)
    ensures RanksWithin(InjectBody(s, user, host, proxyPort).0, 1, GrantCount + 8)
  {
    if s.autoCommitOff {
      var st := RunSteps(s, user, host, proxyPort);
      RunStepsInOrder(s, user, host, proxyPort);
      InOrderAppend(st.calls, [Rollback], 1, GrantCount + 7, GrantCount + 8);
    }
  }

  /** The grant calls `grantPermissions` makes when none of them raises. */
  function AllGrantCalls(user: string, host: string, proxyPort: int): seq<Call> {
    var stmts := GrantPermissions(user, host, proxyPort);
    seq(GrantCount, i requires 0 <= i < GrantCount => Grant(i, stmts[i]))
  }

  /** When every step through the start call succeeds, `inject` makes exactly this sequence of
      calls: the six grants, the upload and status check, the procedure, the start and the commit,
      with a rollback only if the commit fails. */
  lemma InjectCallsWhenStepsSucceed(s: InjectScript, user: string, host: string, proxyPort: int)
    requires s.autoCommitOff && StepsSucceed(s)
    ensures Inject(s, user, host, proxyPort).calls ==
      [AutoCommit(false)] + AllGrantCalls(user, host, proxyPort)
      + [UploadSource, StatusCheck, CreateProcedure, StartService(proxyPort), Commit]
      + (if s.commit then [] else [Rollback]) + [AutoCommit(true)]
  {
    var steps := AllGrantCalls(user, host, proxyPort)
      + [UploadSource, StatusCheck, CreateProcedure, StartService(proxyPort), Commit];
    RunStepsWhenStepsSucceed(s, user, host, proxyPort);
    var rb: seq<Call> := if s.commit then [] else [Rollback];
    assert InjectBody(s, user, host, proxyPort).0 == steps + rb;
  }

  /** The steps' calls when everything through the start call succeeds; only the commit can fail. */
  lemma RunStepsWhenStepsSucceed(s: InjectScript, user: string, host: string, proxyPort: int)
    requires StepsSucceed(s)
    ensures RunSteps(s, user, host, proxyPort).calls == AllGrantCalls(user, host, proxyPort)
      + [UploadSource, StatusCheck, CreateProcedure, StartService(proxyPort), Commit]
    ensures RunSteps(s, user, host, proxyPort).started
    ensures RunSteps(s, user, host, proxyPort).fault == if s.commit then None else Some(CommitFault)
  {
    var grants := GrantCalls(s, user, host, proxyPort);
    var all := AllGrantCalls(user, host, proxyPort);
    assert |grants| == GrantCount;
    assert grants == all by {
      forall i | 0 <= i < GrantCount ensures grants[i] == all[i] { }
    }
    assert CheckCalls(s.status) == [StatusCheck];
  }

  /** A rollback is issued exactly when the transaction was opened and something in it failed. */
  lemma InjectRollsBackIff(s: InjectScript, user: string, host: string, proxyPort: int)
    ensures Rollback in Inject(s, user, host, proxyPort).calls <==>
              s.autoCommitOff && !(StepsSucceed(s) && s.commit)
  {
    var calls := Inject(s, user, host, proxyPort).calls;
    if s.autoCommitOff {
      var st := RunSteps(s, user, host, proxyPort);
      RunStepsInOrder(s, user, host, proxyPort);
      assert Rollback !in st.calls by {
        forall i | 0 <= i < |st.calls| ensures st.calls[i] != Rollback {
          assert Rank(st.calls[i]) < GrantCount + 7;
        }
      }
      assert st.fault.None? <==> StepsSucceed(s) && s.commit;
      if st.fault.None? {
        assert calls == [AutoCommit(false)] + st.calls + [AutoCommit(true)];
      } else {
        assert calls == [AutoCommit(false)] + st.calls + [Rollback] + [AutoCommit(true)];
        assert calls[|calls| - 2] == Rollback;
      }
    } else {
      assert calls == [AutoCommit(false), AutoCommit(true)];
    }
  }
}

=== FILE: frame.dfy ===
/** The desktop client's connection form: the input validator, the naming flag it hands to the
    injector, and the `isConnected` state with the controls it enables. */
module Frame {
  import opened Common
  import opened Text
  import Version

  const SidSelection: string := "SID"
  /** The combo box's other entry, "service name". */
  const ServiceNameSelection: string := "\U{670D}\U{52A1}\U{540D}"
  const MaxSidLength: nat := 8

  /** The form as typed; `selection` is the connection-type combo box. */
  datatype Fields = Fields(host: string, port: string, service: string, user: string,
                           password: string, selection: string)

  /** The two rejections: a required field left empty, or an over-long SID. */
  datatype InputError = MissingField | SidTooLong

  /** `validateConnectionInputs`: the four required fields are checked first, each after trimming;
      then, for a SID, the trimmed service value may be at most 8 UTF-16 units. */
  function ValidateConnectionInputs(f: Fields): (r: Option<InputError>)
    ensures r == Some(MissingField) <==> Blank(f.host) || Blank(f.port) || Blank(f.service) || Blank(f.user)
    ensures r == Some(SidTooLong) <==>
              !Blank(f.host) && !Blank(f.port) && !Blank(f.service) && !Blank(f.user)
              && f.selection == SidSelection && Utf16Length(Trim(f.service)) > MaxSidLength
  {
    TrimEmptyIffBlank(f.host);
    TrimEmptyIffBlank(f.port);
    TrimEmptyIffBlank(f.service);
    TrimEmptyIffBlank(f.user);
    if Trim(f.host) == [] || Trim(f.port) == [] || Trim(f.service) == [] || Trim(f.user) == [] then
      Some(MissingField)
    else if f.selection == SidSelection && Utf16Length(Trim(f.service)) > MaxSidLength then
      Some(SidTooLong)
    else
      None
  }

  /** The password takes no part in validation, and a service name has no length limit. */
  lemma ValidationIgnoresPasswordAndServiceNameLength(f: Fields, password: string)
    ensures ValidateConnectionInputs(f.(password := password)) == ValidateConnectionInputs(f)
    ensures f.selection == ServiceNameSelection ==> ValidateConnectionInputs(f) != Some(SidTooLong)
  {
    assert ServiceNameSelection != SidSelection by { assert ServiceNameSelection[0] != SidSelection[0]; }
  }

  /** A nine-character SID is refused. */
  lemma NineCharacterSidRefused()
    ensures ValidateConnectionInputs(Fields("h", "1521", "ORCLTEST1", "u", "", SidSelection)) == Some(SidTooLong)
  {
    var sid := "ORCLTEST1";
    assert !IsTrimmable(sid[0]) && !IsTrimmable(sid[8]);
    TrimKeepsTrimmed(sid);
    assert Utf16Length(Trim(sid)) > MaxSidLength;
    FilledIn("h", "1521", sid, "u");
  }

  /** The same value as a service name is accepted. */
  lemma NineCharacterServiceNameAccepted()
    ensures ValidateConnectionInputs(Fields("h", "1521", "ORCLTEST1", "u", "", ServiceNameSelection)) == None
  {
    FilledIn("h", "1521", "ORCLTEST1", "u");
    assert ServiceNameSelection != SidSelection by { assert ServiceNameSelection[0] != SidSelection[0]; }
  }

  lemma FilledIn(host: string, port: string, service: string, user: string)
    requires host != [] && port != [] && service != [] && user != []
    requires !IsTrimmable(host[0]) && !IsTrimmable(port[0]) && !IsTrimmable(service[0]) && !IsTrimmable(user[0])
    ensures !Blank(host) && !Blank(port) && !Blank(service) && !Blank(user)
  {
  }

  /** The naming flag handed to the injector: the selection is exactly "service name". */
  function IsServiceName(selection: string): bool {
    selection == ServiceNameSelection
  }

  /** The connection string the injector first connects with, built from the trimmed fields. */
  function ConnectionUrl(f: Fields): (url: string)
    ensures StartsWith(url, Version.UrlPrefix)
  {
    Version.BuildJdbcUrl(Trim(f.host), Trim(f.port), Trim(f.service), "unknown", IsServiceName(f.selection))
  }

  /** The connection string reads back as the trimmed host, port and service, in the service-name
      form exactly when "service name" was selected. */
  lemma ConnectionUrlReadsBack(f: Fields)
    requires ':' !in Trim(f.host) && '/' !in Trim(f.host) && ':' !in Trim(f.port) && '/' !in Trim(f.port)
    ensures Version.ParseJdbcUrl(ConnectionUrl(f)).Some?
    ensures Version.ParseJdbcUrl(ConnectionUrl(f)).value.form == Version.ServiceNameForm
            <==> f.selection == ServiceNameSelection
    ensures Version.ParseJdbcUrl(ConnectionUrl(f)).value
            == Version.Target(Version.ParseJdbcUrl(ConnectionUrl(f)).value.form,
                              Trim(f.host), Trim(f.port), Trim(f.service))
  {
    Version.JdbcUrlRoundTrip(Trim(f.host), Trim(f.port), Trim(f.service), "unknown", IsServiceName(f.selection));
    Version.ConnectUrlFollowsFlag(IsServiceName(f.selection));
  }

  /** Which controls are enabled. */
  datatype Controls = Controls(start: bool, stop: bool, portField: bool, login: bool)

  /** The panel as built: start and the port field disabled, stop and login enabled. */
  const InitialControls: Controls := Controls(false, true, false, true)

  /** `updateButtonStates`: stop always on, start and the port field together, login opposite
      them; disconnected, the controls are exactly those of the panel as built. */
  function ButtonStates(connected: bool): (c: Controls)
    ensures c.stop
    ensures c.start == c.portField && c.login == !c.start
    ensures c == InitialControls <==> !connected
  {
    Controls(connected, true, connected, !connected)
  }

  /** How the login worker finished: it returned a value, or `get()` itself threw. */
  datatype LoginOutcome = Returned(ok: bool) | WorkerFailed

  /** A completed background action, as seen by its `done` handler. */
  datatype Event = LoginDone(outcome: LoginOutcome) | StartDone | StopDone

  /** The form's state: the connection flag and the enabled controls. */
  datatype Screen = Screen(connected: bool, controls: Controls)

  const InitialScreen: Screen := Screen(false, InitialControls)

  /** A `done` handler: only a login that returned true sets the flag, nothing clears it, and every
      handler ends by re-deriving the controls from the flag. */
  function Step(s: Screen, e: Event): (t: Screen)
    ensures s.connected ==> t.connected
    ensures !s.connected && t.connected ==> e == LoginDone(Returned(true))
    ensures e == LoginDone(Returned(true)) ==> t.connected
    ensures t.controls.login == !t.connected
  {
    var connected := s.connected || e == LoginDone(Returned(true));
    Screen(connected, ButtonStates(connected))
  }

  function Run(events: seq<Event>): Screen {
    if events == [] then InitialScreen
    else Step(Run(events[..|events| - 1]), events[|events| - 1])
  }

  /** The client is connected iff some login returned true, and the controls always follow the
      flag, from the panel as built onwards. */
  lemma {:induction false} RunConnectedIffLoginSucceeded(events: seq<Event>)
    ensures Run(events).connected <==> exists i :: 0 <= i < |events| && events[i] == LoginDone(Returned(true))
    ensures Run(events).controls == ButtonStates(Run(events).connected)
  {
    if events != [] {
      var front := events[..|events| - 1];
      RunConnectedIffLoginSucceeded(front);
      if Run(front).connected {
        var i :| 0 <= i < |front| && front[i] == LoginDone(Returned(true));
        assert events[i] == front[i];
      }
      if exists i :: 0 <= i < |events| && events[i] == LoginDone(Returned(true)) {
        var i :| 0 <= i < |events| && events[i] == LoginDone(Returned(true));
        if i < |front| { assert front[i] == events[i]; }
      }
    }
  }

  /** Once connected, the client stays connected. */
  lemma {:induction false} ConnectedStays(events: seq<Event>, more: seq<Event>)
    requires Run(events).connected
    ensures Run(events + more).connected
    decreases |more|
  {
    if more != [] {
      var all := events + more;
      assert all[..|all| - 1] == events + more[..|more| - 1];
      ConnectedStays(events, more[..|more| - 1]);
    } else {
      assert events + more == events;
    }
  }
}

=== FILE: socks5.dfy ===
/** The handshake of the relay's connection handler: method negotiation (section 3 of RFC 1928),
    the request (sections 4 and 5) and the reply (section 6), cut down to what the handler does.
    Name resolution and the outbound connect are a supplied outcome. */
module Socks5 {
  import opened Common

  const Version: byte := 5
  const NoAuthentication: byte := 0
  const NoAcceptableMethods: byte := 0xFF
  const AtypIPv4: byte := 1
  const AtypDomainName: byte := 3

  type Port = x: int | 0 <= x < 0x1_0000

  /** `DataInputStream.readByte` gives a two's-complement value. */
  function Signed(b: byte): (v: int)
    ensures v < 0 <==> b >= 0x80
    ensures v >= 0 ==> v == b as int
  {
    if b < 0x80 then b as int else b as int - 0x100
  }

  datatype Address = IPv4(octets: seq<byte>) | DomainName(name: seq<byte>)

  /** A parsed request; the version, command and reserved bytes are kept but never checked. */
  datatype Request = Request(ver: byte, cmd: byte, rsv: byte, dest: Address, port: Port)

  /** Why the handler gave up: the stream ended, a signed length was negative (so the byte array
      could not be allocated), or the address type is neither IPv4 nor a domain name. */
  datatype Failure = EndOfStream | NegativeLength | UnsupportedAddressType(atyp: byte)

  datatype Parse =
    | VersionMismatch
    | GreetingFailed(why: Failure)
    | RequestFailed(why: Failure)
    | Parsed(request: Request, consumed: nat)

  /** `readUnsignedShort`: big-endian. */
  function ReadPort(hi: byte, lo: byte): Port {
    hi as int * 0x100 + lo as int
  }

  /** The request that follows the method reply. */
  function ParseRequest(input: seq<byte>): (p: Parse)
    ensures p.RequestFailed? || p.Parsed?
    ensures p.Parsed? ==> p.consumed <= |input|
  {
    if |input| < 4 then RequestFailed(EndOfStream)
    else
      var atyp := input[3];
      if atyp == AtypIPv4 then
        if |input| < 10 then RequestFailed(EndOfStream)
        else Parsed(Request(input[0], input[1], input[2], IPv4(input[4..8]), ReadPort(input[8], input[9])), 10)
      else if atyp == AtypDomainName then
        if |input| < 5 then RequestFailed(EndOfStream)
        else
          var len := Signed(input[4]);
          if len < 0 then RequestFailed(NegativeLength)
          else if |input| < 7 + len then RequestFailed(EndOfStream)
          else Parsed(Request(input[0], input[1], input[2], DomainName(input[5..5 + len]),
                              ReadPort(input[5 + len], input[6 + len])), 7 + len)
      else RequestFailed(UnsupportedAddressType(atyp))
  }

  /** What the handler reads from a client: the greeting (version, method count, methods) and then
      the request. A version other than 5 is decided on the first byte alone. */
  function ParseConnection(input: seq<byte>): (p: Parse)
    ensures |input| > 0 && input[0] != Version ==> p == VersionMismatch
    ensures p == VersionMismatch ==> |input| > 0 && input[0] != Version
    ensures |input| >= 2 && input[0] == Version && input[1] >= 0x80 ==> p == GreetingFailed(NegativeLength)
    ensures p.Parsed? ==> p.consumed <= |input|
  {
    if |input| == 0 then GreetingFailed(EndOfStream)
    else if input[0] != Version then VersionMismatch
    else if |input| < 2 then GreetingFailed(EndOfStream)
    else
      var n := Signed(input[1]);
      if n < 0 then GreetingFailed(NegativeLength)
      else if |input| < 2 + n then GreetingFailed(EndOfStream)
      else
        match ParseRequest(input[2 + n..])
        case Parsed(r, c) => Parsed(r, 2 + n + c)
        case other => other
  }

  /** Outcome of resolving the destination and connecting to it within the timeout: the local
      port of the outbound socket, or failure. */
  datatype NetOutcome = Connected(localPort: Port) | Unreachable

  /** The fixed success reply: IPv4 address type, an all-zero bound address, and the outbound
      socket's local port as `(byte)(p >> 8), (byte)(p & 0xFF)`. */
  function SuccessReply(localPort: Port): (r: seq<byte>)
    ensures |r| == 10
  {
    [Version, 0, 0, AtypIPv4, 0, 0, 0, 0, Low8(localPort / 0x100), Low8(localPort)]
  }

  /** A client's reading of a reply: the bound port of a success reply with an IPv4 address. */
  function ReplyBoundPort(reply: seq<byte>): Option<Port> {
    if |reply| == 10 && reply[0] == Version && reply[1] == 0 && reply[3] == AtypIPv4
    then Some(ReadPort(reply[8], reply[9]))
    else None
  }

  /** The reply is `05 00 00 01 00 00 00 00 hi lo` with `hi * 256 + lo` the local port. */
  lemma SuccessReplyReadsBack(p: Port)
    ensures SuccessReply(p)[..8] == [5, 0, 0, 1, 0, 0, 0, 0]
    ensures SuccessReply(p)[8] as int * 0x100 + SuccessReply(p)[9] as int == p
    ensures ReplyBoundPort(SuccessReply(p)) == Some(p)
  {
  }

  /** How a connection ends up: closed, or handed to the two forwarding threads. */
  datatype End = Closed | Relaying(request: Request, localPort: Port)

  /** The bytes written to the client, and how the connection ends up. */
  datatype Served = Served(written: seq<byte>, end: End)

  /** `handleConnection`: nothing happens while `running` is false, which is only before `start`
      runs, since nothing in the class clears it; a wrong version gets `05 FF`; otherwise the
      methods are skipped and `05 00` is sent whatever they were; a failed request or connect
      closes the socket with no reply; success sends the fixed reply. */
  function HandleConnection(running: bool, input: seq<byte>, net: NetOutcome): (s: Served)
    ensures !running ==> s == Served([], Closed)
    ensures running && |input| > 0 && input[0] != Version ==> s == Served([Version, NoAcceptableMethods], Closed)
    ensures s.end.Relaying? <==> running && ParseConnection(input).Parsed? && net.Connected?
    ensures s.end.Relaying? ==>
              s.end.request == ParseConnection(input).request && s.end.localPort == net.localPort
              && s.written == [Version, NoAuthentication] + SuccessReply(net.localPort)
    ensures running && ParseConnection(input).GreetingFailed? ==> s == Served([], Closed)
    ensures running && ParseConnection(input).RequestFailed? ==> s == Served([Version, NoAuthentication], Closed)
    ensures running && ParseConnection(input).Parsed? && net.Unreachable? ==>
              s == Served([Version, NoAuthentication], Closed)
  {
    if !running then Served([], Closed)
    else
      match ParseConnection(input)
      case VersionMismatch => Served([Version, NoAcceptableMethods], Closed)
      case GreetingFailed(_) => Served([], Closed)
      case RequestFailed(_) => Served([Version, NoAuthentication], Closed)
      case Parsed(r, _) =>
        match net
        case Unreachable => Served([Version, NoAuthentication], Closed)
        case Connected(p) => Served([Version, NoAuthentication] + SuccessReply(p), Relaying(r, p))
  }

  /** The request bytes for an address, as a client sends them. */
  function EncodeAddress(a: Address): seq<byte>
    requires Encodable(a)
  {
    match a
    case IPv4(o) => [AtypIPv4] + o
    case DomainName(n) => [AtypDomainName, |n| as byte] + n
  }

  /** An address a client can put on the wire: four octets, or a name of at most 255 bytes. */
  predicate Encodable(a: Address) {
    match a
    case IPv4(o) => |o| == 4
    case DomainName(n) => |n| < 0x100
  }

  function EncodePort(p: Port): seq<byte> {
    [(p / 0x100) as byte, (p % 0x100) as byte]
  }

  function EncodeGreeting(methods: seq<byte>): seq<byte>
    requires |methods| < 0x100
  {
    [Version, |methods| as byte] + methods
  }

  function EncodeRequest(r: Request): seq<byte>
    requires Encodable(r.dest)
  {
    [r.ver, r.cmd, r.rsv] + EncodeAddress(r.dest) + EncodePort(r.port)
  }

  /** What a one-byte length can carry through a signed read: below 128. */
  predicate ReadableAddress(a: Address) {
    match a
    case IPv4(o) => |o| == 4
    case DomainName(n) => |n| < 0x80
  }

  lemma RequestRoundTrip(r: Request, rest: seq<byte>)
    requires ReadableAddress(r.dest)
    ensures ParseRequest(EncodeRequest(r) + rest) == Parsed(r, |EncodeRequest(r)|)
  {
    var e := EncodeRequest(r) + rest;
    var p := EncodePort(r.port);
    match r.dest
    case IPv4(o) =>
      assert e == [r.ver, r.cmd, r.rsv, AtypIPv4] + o + p + rest;
      assert e[4..8] == o;
      assert e[8] == p[0] && e[9] == p[1];
    case DomainName(n) =>
      var len := |n|;
      assert e == [r.ver, r.cmd, r.rsv, AtypDomainName, len as byte] + n + p + rest;
      assert Signed(e[4]) == len;
      assert e[5..5 + len] == n;
      assert e[5 + len] == p[0] && e[6 + len] == p[1];
  }

  /** A client offering fewer than 128 methods and naming a destination whose length fits a
      signed byte has its request read back exactly, whatever its version, command and reserved
      bytes say. */
  lemma ConnectionRoundTrip(methods: seq<byte>, r: Request, rest: seq<byte>)
    requires |methods| < 0x80 && ReadableAddress(r.dest)
    ensures ParseConnection(EncodeGreeting(methods) + EncodeRequest(r) + rest)
            == Parsed(r, |EncodeGreeting(methods)| + |EncodeRequest(r)|)
  {
    var g := EncodeGreeting(methods);
    var input := g + EncodeRequest(r) + rest;
    assert input[0] == Version && input[1] == |methods| as byte;
    assert Signed(input[1]) == |methods|;
    assert input[2 + |methods|..] == EncodeRequest(r) + rest;
    RequestRoundTrip(r, rest);
  }

  /** A greeting offering 128 or more methods, which the protocol allows, reads as a negative count:
      the connection is dropped before any reply. */
  lemma ManyMethodsDropped(methods: seq<byte>, rest: seq<byte>, net: NetOutcome)
    requires 0x80 <= |methods| < 0x100
    ensures HandleConnection(true, EncodeGreeting(methods) + rest, net) == Served([], Closed)
  {
    var input := EncodeGreeting(methods) + rest;
    assert input[0] == Version && input[1] == |methods| as byte;
  }

  /** A domain name of 128 bytes or more, which the protocol allows, reads as a negative length:
      the connection is dropped after the method reply and no request reply is sent. */
  lemma LongDomainNameDropped(methods: seq<byte>, r: Request, rest: seq<byte>, net: NetOutcome)
    requires |methods| < 0x80 && r.dest.DomainName? && 0x80 <= |r.dest.name| < 0x100
    ensures HandleConnection(true, EncodeGreeting(methods) + EncodeRequest(r) + rest, net)
            == Served([Version, NoAuthentication], Closed)
  {
    var g := EncodeGreeting(methods);
    var input := g + EncodeRequest(r) + rest;
    assert input[0] == Version && input[1] == |methods| as byte;
    var req := EncodeRequest(r) + rest;
    assert input[2 + |methods|..] == req;
    assert req[3] == AtypDomainName && req[4] == |r.dest.name| as byte;
  }

  /** Any address type other than IPv4 and domain name closes the connection after the method
      reply, with no request reply. */
  lemma OtherAddressTypeDropped(methods: seq<byte>, header: seq<byte>, rest: seq<byte>, net: NetOutcome)
    requires |methods| < 0x80 && |header| == 4 && header[3] != AtypIPv4 && header[3] != AtypDomainName
    ensures HandleConnection(true, EncodeGreeting(methods) + header + rest, net)
            == Served([Version, NoAuthentication], Closed)
  {
    var input := EncodeGreeting(methods) + header + rest;
    assert input[0] == Version && input[1] == |methods| as byte;
    assert input[2 + |methods|..] == header + rest;
  }

  /** A bare greeting `05 01 00` is answered `05 00`; the request that never comes ends the
      connection. */
  lemma BareGreetingAnswered(net: NetOutcome)
    ensures HandleConnection(true, [5, 1, 0], net) == Served([5, 0], Closed)
  {
  }

  /** A CONNECT to 127.0.0.1 port 80 reads back as that destination. */
  lemma LoopbackRequestParsed()
    ensures ParseConnection([5, 1, 0, 5, 1, 0, 1, 127, 0, 0, 1, 0, 80])
            == Parsed(Request(5, 1, 0, IPv4([127, 0, 0, 1]), 80), 13)
  {
    var r := Request(5, 1, 0, IPv4([127, 0, 0, 1]), 80);
    ConnectionRoundTrip([0], r, []);
    assert EncodeRequest(r) == [5, 1, 0, 1, 127, 0, 0, 1, 0, 80];
    assert EncodeGreeting([0]) + EncodeRequest(r) + [] == [5, 1, 0, 5, 1, 0, 1, 127, 0, 0, 1, 0, 80];
  }

  /** Once that target is reached, the client gets `05 00` and the success reply. */
  lemma ConnectLoopbackAnswered(localPort: Port)
    ensures var s := HandleConnection(true, [5, 1, 0, 5, 1, 0, 1, 127, 0, 0, 1, 0, 80], Connected(localPort));
      && s.end == Relaying(Request(5, 1, 0, IPv4([127, 0, 0, 1]), 80), localPort)
      && s.written[..6] == [5, 0, 5, 0, 0, 1]
  {
    LoopbackRequestParsed();
  }
}

=== FILE: sqlquote.dfy ===
/** Quote doubling for SQL string literals, and the reader that a SQL parser applies to them. */
module SqlQuote {
  import opened Common
  import opened Text

  const Quote: char := '\''

  /** `s.replace("'", "''")`: every single quote is doubled. */
  function Escape(s: string): string {
    ReplaceChar(s, Quote, [Quote, Quote])
  }

  /** Every quote of `t` belongs to an adjacent pair, so `t` cannot end a literal early. */
  predicate WellQuoted(t: string)
    decreases |t|
  {
    if t == [] then true
    else if t[0] == Quote then |t| >= 2 && t[1] == Quote && WellQuoted(t[2..])
    else WellQuoted(t[1..])
  }

  /** Collapses each doubled quote back to one. */
  function Unescape(t: string): string
    requires WellQuoted(t)
    decreases |t|
  {
    if t == [] then []
    else if t[0] == Quote then [Quote] + Unescape(t[2..])
    else [t[0]] + Unescape(t[1..])
  }

  /** How a SQL parser reads a literal's body after its opening quote: `''` stands for one quote
      and a lone quote closes the literal. The result is the text and what follows the literal. */
  function ReadLiteralBody(t: string): (r: Option<(string, string)>)
    decreases |t|
  {
    if t == [] then None
    else if t[0] == Quote then
      if |t| >= 2 && t[1] == Quote then
        match ReadLiteralBody(t[2..])
        case None => None
        case Some(p) => Some(([Quote] + p.0, p.1))
      else Some(([], t[1..]))
    else
      match ReadLiteralBody(t[1..])
      case None => None
      case Some(p) => Some(([t[0]] + p.0, p.1))
  }

  /** The text with every quote removed. */
  function Unquoted(s: string): string {
    if s == [] then [] else (if s[0] == Quote then [] else [s[0]]) + Unquoted(s[1..])
  }

  function QuoteCount(s: string): nat {
    if s == [] then 0 else (if s[0] == Quote then 1 else 0) + QuoteCount(s[1..])
  }

  lemma {:induction false} EscapeWellQuoted(s: string)
    ensures WellQuoted(Escape(s))
    decreases |s|
  {
    if s != [] {
      EscapeWellQuoted(s[1..]);
      var t := Escape(s);
      if s[0] == Quote {
        assert t == [Quote, Quote] + Escape(s[1..]);
        assert t[2..] == Escape(s[1..]);
      } else {
        assert t == [s[0]] + Escape(s[1..]);
        assert t[1..] == Escape(s[1..]);
      }
    }
  }

  lemma {:induction false} UnescapeEscape(s: string)
    ensures WellQuoted(Escape(s)) && Unescape(Escape(s)) == s
    decreases |s|
  {
    EscapeWellQuoted(s);
    if s != [] {
      UnescapeEscape(s[1..]);
      var t := Escape(s);
      if s[0] == Quote {
        assert t[2..] == Escape(s[1..]);
      } else {
        assert t[1..] == Escape(s[1..]);
      }
    }
  }

  lemma {:induction false} EscapeUnescape(t: string)
    requires WellQuoted(t)
    ensures Escape(Unescape(t)) == t
    decreases |t|
  {
    if t != [] {
      if t[0] == Quote {
        EscapeUnescape(t[2..]);
        assert t == [Quote, Quote] + t[2..];
      } else {
        EscapeUnescape(t[1..]);
        assert t == [t[0]] + t[1..];
      }
    }
  }

  /** Escaping keeps every other char, in order, and exactly doubles the quotes. */
  lemma {:induction false} EscapeOnlyDoublesQuotes(s: string)
    ensures Unquoted(Escape(s)) == Unquoted(s)
    ensures QuoteCount(Escape(s)) == 2 * QuoteCount(s)
    ensures |Escape(s)| == |s| + QuoteCount(s)
    decreases |s|
  {
    if s != [] {
      EscapeOnlyDoublesQuotes(s[1..]);
      var t := Escape(s);
      if s[0] == Quote {
        assert t[1..] == [Quote] + Escape(s[1..]);
        assert t[1..][1..] == Escape(s[1..]);
      } else {
        assert t[1..] == Escape(s[1..]);
      }
    }
  }

  /** An escaped text placed between quotes reads back as exactly the original text, and the
      literal ends where the closing quote was put, so the text cannot break out of it. */
  lemma {:induction false} EscapedLiteralReadsBack(s: string, rest: string)
    requires rest == [] || rest[0] != Quote
    ensures ReadLiteralBody(Escape(s) + [Quote] + rest) == Some((s, rest))
    decreases |s|
  {
    var t := Escape(s) + [Quote] + rest;
    if s == [] {
      assert t == [Quote] + rest;
    } else {
      EscapedLiteralReadsBack(s[1..], rest);
      if s[0] == Quote {
        assert t == [Quote, Quote] + (Escape(s[1..]) + [Quote] + rest);
        assert t[0] == Quote && t[1] == Quote && t[2..] == Escape(s[1..]) + [Quote] + rest;
        assert s == [Quote] + s[1..];
      } else {
        assert t == [s[0]] + (Escape(s[1..]) + [Quote] + rest);
        assert t[0] == s[0] && t[1..] == Escape(s[1..]) + [Quote] + rest;
        assert s == [s[0]] + s[1..];
      }
    }
  }
}

=== FILE: statements.dfy ===
/** The SQL text the client sends: the session tag, the six permission grants and the kill order.
    Each is built by pasting values into a fixed template, so each comes with a reader showing
    that the pasted values come back out of the literal they were put in. */
module Statements {
  import opened Common
  import opened Text
  import opened Decimal
  import opened SqlQuote

  /** The tag is this prefix followed by a random UUID; the UUID is supplied by the caller. */
  const IdentifierPrefix: string := "SOCKS5_PROXY_"

  function ClientIdentifier(uuid: string): (id: string)
    ensures StartsWith(id, IdentifierPrefix) && id[|IdentifierPrefix|..] == uuid
  {
    IdentifierPrefix + uuid
  }

  const SetIdentifierPrefix: string := "BEGIN DBMS_SESSION.SET_IDENTIFIER('"
  const SetIdentifierSuffix: string := "'); END;"

  /** The block that tags the control session, with the identifier quote-doubled. */
  function SetIdentifierStatement(id: string): string {
    SetIdentifierPrefix + Escape(id) + SetIdentifierSuffix
  }

  /** The literal in the tagging block holds exactly the identifier, and the block goes on with
      the fixed tail, whatever quotes the identifier contains. */
  lemma SetIdentifierReadsBack(id: string)
    ensures StartsWith(SetIdentifierStatement(id), SetIdentifierPrefix)
    ensures ReadLiteralBody(SetIdentifierStatement(id)[|SetIdentifierPrefix|..]) == Some((id, "); END;"))
  {
    var st := SetIdentifierStatement(id);
    assert st == SetIdentifierPrefix + (Escape(id) + [Quote] + "); END;");
    assert st[|SetIdentifierPrefix|..] == Escape(id) + [Quote] + "); END;";
    EscapedLiteralReadsBack(id, "); END;");
  }

  /** The grantee: the user name upper-cased and quote-doubled. */
  function SafeUser(user: string): string {
    Escape(Upper(user))
  }

  /** `host.replace(".", "\\.")`: every dot of the host gets a backslash before it. */
  function MaskHost(host: string): string {
    ReplaceChar(host, '.', "\\.")
  }

  /** One Java permission: its class, target and actions. */
  datatype Permission = Permission(kind: string, target: string, actions: string)

  /** The six permissions granted before deployment, in the order they are issued: listening on the
      proxy port of the host and of every address, connecting anywhere, two class-loader rights and
      access to system properties. */
  function RequiredPermissions(host: string, proxyPort: int): (ps: seq<Permission>)
    ensures |ps| == 6
  {
    [ Permission("java.net.SocketPermission", MaskHost(host) + ":" + FormatInt(proxyPort), "listen,accept,resolve"),
      Permission("java.net.SocketPermission", "*:" + FormatInt(proxyPort), "listen,accept,resolve"),
      Permission("java.net.SocketPermission", "*", "connect,resolve"),
      Permission("java.lang.RuntimePermission", "createClassLoader", ""),
      Permission("java.lang.RuntimePermission", "getClassLoader", ""),
      Permission("java.util.PropertyPermission", "*", "read,write") ]
  }

  const GrantPrefix: string := "BEGIN DBMS_JAVA.GRANT_PERMISSION('"
  const Separator: string := "', '"
  const GrantSuffix: string := "'); END;"

  /** One `DBMS_JAVA.GRANT_PERMISSION` block. Only the grantee is quote-doubled; the permission's
      class, target and actions are pasted as they are. */
  function GrantStatement(user: string, p: Permission): string {
    GrantPrefix + SafeUser(user) + Separator + p.kind + Separator + p.target + Separator + p.actions
      + GrantSuffix
  }

  /** `grantPermissions`: the statements issued, one per required permission, in order. */
  function GrantPermissions(user: string, host: string, proxyPort: int): (stmts: seq<string>)
    ensures |stmts| == |RequiredPermissions(host, proxyPort)|
    ensures forall i :: 0 <= i < |stmts| ==> StartsWith(stmts[i], GrantPrefix + SafeUser(user) + Separator)
  {
    var ps := RequiredPermissions(host, proxyPort);
    seq(|ps|, i requires 0 <= i < |ps| => GrantStatement(user, ps[i]))
  }

  /** The four arguments of a grant block as a SQL parser reads them. */
  datatype GrantArgs = GrantArgs(grantee: string, kind: string, target: string, actions: string)

  /** Reads the next literal: `rest` is what follows a closing quote and must start with `, '`,
      the separator's comma, space and opening quote. */
  function ReadNext(rest: string): Option<(string, string)> {
    if StartsWith(rest, ", '") then ReadLiteralBody(rest[3..]) else None
  }

  function ReadGrant(stmt: string): Option<GrantArgs> {
    if !StartsWith(stmt, GrantPrefix) then None
    else
      match ReadLiteralBody(stmt[|GrantPrefix|..])
      case None => None
      case Some(a) =>
        match ReadNext(a.1)
        case None => None
        case Some(b) =>
          match ReadNext(b.1)
          case None => None
          case Some(c) =>
            match ReadNext(c.1)
            case None => None
            case Some(d) => if d.1 == "); END;" then Some(GrantArgs(a.0, b.0, c.0, d.0)) else None
  }

  lemma QuoteFreeReadsBack(s: string, rest: string)
    requires Quote !in s
    requires rest == [] || rest[0] != Quote
    ensures ReadLiteralBody(s + [Quote] + rest) == Some((s, rest))
  {
    assert Escape(s) == s;
    EscapedLiteralReadsBack(s, rest);
  }

  /** A literal closed by a separator reads back, and the next literal starts right after it. */
  lemma ReadField(s: string, x: string)
    ensures ReadLiteralBody(Escape(s) + (Separator + x)) == Some((s, ", '" + x))
  {
    assert Escape(s) + (Separator + x) == Escape(s) + [Quote] + (", '" + x);
    EscapedLiteralReadsBack(s, ", '" + x);
  }

  lemma ReadLastField(s: string)
    ensures ReadLiteralBody(Escape(s) + GrantSuffix) == Some((s, "); END;"))
  {
    assert Escape(s) + GrantSuffix == Escape(s) + [Quote] + "); END;";
    EscapedLiteralReadsBack(s, "); END;");
  }

  lemma SkipComma(x: string)
    ensures ReadNext(", '" + x) == ReadLiteralBody(x)
  {
    assert (", '" + x)[3..] == x;
  }

  /** A grant block reads back as the upper-cased user name, however many quotes it holds, and as
      the permission's class, target and actions when those hold no quote. */
  lemma GrantStatementReadsBack(user: string, p: Permission)
    requires Quote !in p.kind && Quote !in p.target && Quote !in p.actions
    ensures ReadGrant(GrantStatement(user, p)) == Some(GrantArgs(Upper(user), p.kind, p.target, p.actions))
  {
    var r3 := p.actions + GrantSuffix;
    var r2 := p.target + (Separator + r3);
    var r1 := p.kind + (Separator + r2);
    var r0 := SafeUser(user) + (Separator + r1);
    var st := GrantStatement(user, p);
    assert st == GrantPrefix + r0;
    assert StartsWith(st, GrantPrefix) && st[|GrantPrefix|..] == r0;
    assert Escape(p.kind) == p.kind && Escape(p.target) == p.target && Escape(p.actions) == p.actions;
    ReadField(Upper(user), r1);
    SkipComma(r1);
    ReadField(p.kind, r2);
    SkipComma(r2);
    ReadField(p.target, r3);
    SkipComma(r3);
    ReadLastField(p.actions);
  }

  lemma FormatIntQuoteFree(i: int)
    ensures Quote !in FormatInt(i) && ',' !in FormatInt(i)
  {
    var s := FormatInt(i);
    forall k | 0 <= k < |s| ensures s[k] != Quote && s[k] != ',' {
      assert IsDigit(s[k]) || s[k] == '-';
    }
  }

  lemma MaskHostQuoteFree(host: string)
    requires Quote !in host
    ensures Quote !in MaskHost(host)
    decreases |host|
  {
    if host != [] {
      MaskHostQuoteFree(host[1..]);
    }
  }

  lemma SocketConstantsQuoteFree()
    ensures Quote !in "java.net.SocketPermission" && Quote !in "listen,accept,resolve"
    ensures Quote !in "connect,resolve"
  {
  }

  lemma RuntimeConstantsQuoteFree()
    ensures Quote !in "java.lang.RuntimePermission"
    ensures Quote !in "createClassLoader" && Quote !in "getClassLoader"
  {
  }

  lemma PropertyConstantsQuoteFree()
    ensures Quote !in "java.util.PropertyPermission" && Quote !in "read,write"
    ensures Quote !in "*" && Quote !in "*:" && Quote !in ":" && Quote !in ""
  {
  }

  lemma QuoteFreeConcat(a: string, b: string)
    requires Quote !in a && Quote !in b
    ensures Quote !in a + b
  {
  }

  /** Built from a host without quotes, no required permission has a quote in it. */
  lemma RequiredPermissionsQuoteFree(host: string, proxyPort: int)
    requires Quote !in host
    ensures forall i :: 0 <= i < 6 ==>
      var p := RequiredPermissions(host, proxyPort)[i];
      Quote !in p.kind && Quote !in p.target && Quote !in p.actions
  {
    SocketConstantsQuoteFree();
    RuntimeConstantsQuoteFree();
    PropertyConstantsQuoteFree();
    FormatIntQuoteFree(proxyPort);
    MaskHostQuoteFree(host);
    QuoteFreeConcat(MaskHost(host), ":");
    QuoteFreeConcat(MaskHost(host) + ":", FormatInt(proxyPort));
    QuoteFreeConcat("*:", FormatInt(proxyPort));
  }

  /** The arguments a grant of `p` to `user` should carry. */
  function ExpectedArgs(user: string, p: Permission): GrantArgs {
    GrantArgs(Upper(user), p.kind, p.target, p.actions)
  }

  /** For a host without quotes, every statement `grantPermissions` issues grants the upper-cased
      user exactly the corresponding required permission, in the order of the list. */
  lemma GrantPermissionsReadBack(user: string, host: string, proxyPort: int)
    requires Quote !in host
    ensures forall i :: 0 <= i < 6 ==>
      ReadGrant(GrantPermissions(user, host, proxyPort)[i])
        == Some(ExpectedArgs(user, RequiredPermissions(host, proxyPort)[i]))
  {
    RequiredPermissionsQuoteFree(host, proxyPort);
    forall i | 0 <= i < 6
      ensures ReadGrant(GrantPermissions(user, host, proxyPort)[i])
        == Some(ExpectedArgs(user, RequiredPermissions(host, proxyPort)[i]))
    {
      var p := RequiredPermissions(host, proxyPort)[i];
      assert GrantPermissions(user, host, proxyPort)[i] == GrantStatement(user, p);
      GrantStatementReadsBack(user, p);
    }
  }

  const KillPrefix: string := "ALTER SYSTEM KILL SESSION '"

  /** `ALTER SYSTEM KILL SESSION 'sid,serial#' IMMEDIATE`. */
  function KillStatement(sid: int, serial: int): string {
    KillPrefix + FormatInt(sid) + "," + FormatInt(serial) + "' IMMEDIATE"
  }

  /** The session a kill order names, read back from its literal. */
  function ReadKillTarget(stmt: string): Option<(int, int)> {
    if !StartsWith(stmt, KillPrefix) then None
    else ReadKillLiteral(stmt[|KillPrefix|..])
  }

  /** Reads `sid,serial#' IMMEDIATE`, the part after the opening quote. */
  function ReadKillLiteral(text: string): Option<(int, int)> {
    match ReadLiteralBody(text)
    case None => None
    case Some(lit) =>
      if lit.1 != " IMMEDIATE" then None
      else
        match SplitFirst(lit.0, ',')
        case None => None
        case Some(parts) =>
          match (ParseInt(parts.0), ParseInt(parts.1))
          case (Some(a), Some(b)) => Some((a, b))
          case _ => None
  }

  lemma KillLiteralReadsBack(sid: int, serial: int)
    ensures ReadKillLiteral(FormatInt(sid) + "," + FormatInt(serial) + "' IMMEDIATE") == Some((sid, serial))
  {
    var body := FormatInt(sid) + "," + FormatInt(serial);
    FormatIntQuoteFree(sid);
    FormatIntQuoteFree(serial);
    assert Quote !in body;
    assert body + "' IMMEDIATE" == body + [Quote] + " IMMEDIATE";
    QuoteFreeReadsBack(body, " IMMEDIATE");
    SplitFirstAt(FormatInt(sid), ',', FormatInt(serial));
    FormatIntRoundTrip(sid);
    FormatIntRoundTrip(serial);
  }

  /** The kill order names exactly the session it was built for. */
  lemma KillStatementReadsBack(sid: int, serial: int)
    ensures ReadKillTarget(KillStatement(sid, serial)) == Some((sid, serial))
  {
    var literal := FormatInt(sid) + "," + FormatInt(serial) + "' IMMEDIATE";
    var st := KillStatement(sid, serial);
    assert st == KillPrefix + literal;
    assert st[|KillPrefix|..] == literal;
    KillLiteralReadsBack(sid, serial);
  }
}

=== FILE: termination.dfy ===
/** Stopping the relay: the tagged server sessions are looked up and each is killed with a bounded
    retry, every attempt verified by a second lookup. Each remote call is an outcome supplied
    by the caller, and the one-second pauses are counted instead of slept. */
module Termination {
  import opened Common

  const MaxAttempts: nat := 3

  /** Result of the follow-up lookup of one `(sid, serial#)` in the session registry. */
  datatype Lookup = StillListed | NotListed | LookupFailed

  /** What one kill attempt meets: the kill statement raises, or it executes and the lookup runs. */
  datatype Attempt = KillRaised | KillExecuted(check: Lookup)

  /** One attempt, and whether an interrupt arrives during the pause that follows it if it fails. */
  datatype Round = Round(attempt: Attempt, interruptedInPause: bool)

  /** `verifySessionTerminated`: the session is gone only when the lookup ran and found no row. */
  function VerifySessionTerminated(check: Lookup): (gone: bool)
    ensures gone <==> check == NotListed
  {
    match check
    case StillListed => false
    case NotListed => true
    case LookupFailed => false
  }

  /** `attemptTermination`: `None` when the kill statement raises, else the verification result. */
  function AttemptTermination(a: Attempt): (r: Option<bool>)
    ensures r == Some(true) <==> a == KillExecuted(NotListed)
    ensures r == None <==> a == KillRaised
  {
    match a
    case KillRaised => None
    case KillExecuted(check) => Some(VerifySessionTerminated(check))
  }

  predicate Succeeds(a: Attempt) {
    AttemptTermination(a) == Some(true)
  }

  /** One run of the retry loop: whether the session was verified gone, how many attempts and
      pauses it made, and whether the thread's interrupt flag is set afterwards. */
  datatype RetryRun = RetryRun(terminated: bool, attempts: nat, pauses: nat, interrupted: bool)

  /** Reference definition of the retry loop from attempt `k` on, with the interrupt flag `flag`.
      A set flag makes the next pause end at once, as `Thread.sleep` does. */
  function RetryFrom(rounds: nat -> Round, k: nat, flag: bool): RetryRun
    requires k <= MaxAttempts
    decreases MaxAttempts - k
  {
    if k == MaxAttempts then RetryRun(false, k, k, flag)
    else if Succeeds(rounds(k).attempt) then RetryRun(true, k + 1, k, flag)
    else if flag || rounds(k).interruptedInPause then RetryRun(false, k + 1, k + 1, true)
    else RetryFrom(rounds, k + 1, false)
  }

  /** `terminateSessionWithRetry`: at most three attempts, stopping at the first success; a pause
      after every failed attempt, the third included; an interrupt in a pause gives up at once. */
  method TerminateSessionWithRetry(rounds: nat -> Round, interrupted: bool) returns (r: RetryRun)
    ensures r == RetryFrom(rounds, 0, interrupted)
    ensures 1 <= r.attempts <= MaxAttempts
    ensures r.terminated <==> exists i :: 0 <= i < r.attempts && Succeeds(rounds(i).attempt)
    ensures forall i :: 0 <= i < r.attempts - 1 ==> !Succeeds(rounds(i).attempt)
    ensures r.pauses == if r.terminated then r.attempts - 1 else r.attempts
    ensures !r.terminated && r.attempts < MaxAttempts ==> r.interrupted
    ensures r.interrupted <==>
              interrupted || (!r.terminated && rounds(r.attempts - 1).interruptedInPause)
  {
    var attempts: nat := 0;
    var flag := interrupted;
    while attempts < MaxAttempts
      invariant attempts <= MaxAttempts
      invariant RetryFrom(rounds, attempts, flag) == RetryFrom(rounds, 0, interrupted)
      invariant attempts > 0 ==> !flag && !interrupted
      invariant attempts == 0 ==> flag == interrupted
      invariant forall i :: 0 <= i < attempts ==> !Succeeds(rounds(i).attempt) && !rounds(i).interruptedInPause
      decreases MaxAttempts - attempts
    {
      var outcome := AttemptTermination(rounds(attempts).attempt);
      if outcome == Some(true) {
        return RetryRun(true, attempts + 1, attempts, flag);
      }
      // the pause after a failed attempt
      if flag || rounds(attempts).interruptedInPause {
        return RetryRun(false, attempts + 1, attempts + 1, true);
      }
      attempts := attempts + 1;
    }
    r := RetryRun(false, attempts, attempts, flag);
  }

  /** When the first attempt still finds the session and the second finds it gone, the run ends
      after two attempts and one pause. */
  lemma GoneAfterSecondAttempt()
    ensures RetryFrom(i => if i == 0 then Round(KillExecuted(StillListed), false)
                           else Round(KillExecuted(NotListed), false), 0, false)
            == RetryRun(true, 2, 1, false)
  {
  }

  /** A server session carrying the client's tag, with the outcomes its kill attempts will meet. */
  datatype TaggedSession = TaggedSession(sid: int, serial: int, rounds: nat -> Round)

  /** Result of `SELECT sid, serial# FROM v$session WHERE client_identifier = ?`. */
  datatype SessionQuery = QueryRaised | Listed(sessions: seq<TaggedSession>)

  /** Reference definition: one retry run per listed session, in order, each starting with the
      interrupt flag the previous run left. */
  function RunsFrom(sessions: seq<TaggedSession>, flag: bool): (runs: seq<RetryRun>)
    ensures |runs| == |sessions|
    decreases |sessions|
  {
    if sessions == [] then []
    else
      var r := RetryFrom(sessions[0].rounds, 0, flag);
      [r] + RunsFrom(sessions[1..], r.interrupted)
  }

  function RunsFlag(sessions: seq<TaggedSession>, flag: bool): bool
    decreases |sessions|
  {
    if sessions == [] then flag
    else RunsFlag(sessions[1..], RetryFrom(sessions[0].rounds, 0, flag).interrupted)
  }

  lemma RunsStep(sessions: seq<TaggedSession>, i: nat, flag: bool)
    requires i < |sessions|
    ensures var r := RetryFrom(sessions[i].rounds, 0, flag);
      && RunsFrom(sessions[i..], flag) == [r] + RunsFrom(sessions[i + 1..], r.interrupted)
      && RunsFlag(sessions[i..], flag) == RunsFlag(sessions[i + 1..], r.interrupted)
  {
    assert sessions[i..][0] == sessions[i] && sessions[i..][1..] == sessions[i + 1..];
  }

  datatype KillRun = KillRun(killed: bool, runs: seq<RetryRun>, interrupted: bool)

  /** After `i` sessions: the runs so far and the reference runs of the rest make up all runs. */
  ghost predicate KillProgress(sessions: seq<TaggedSession>, interrupted: bool, i: nat,
                               runs: seq<RetryRun>, flag: bool, killed: bool) {
    && i <= |sessions| && |runs| == i
    && runs + RunsFrom(sessions[i..], flag) == RunsFrom(sessions, interrupted)
    && RunsFlag(sessions[i..], flag) == RunsFlag(sessions, interrupted)
    && (killed <==> exists j :: 0 <= j < i && runs[j].terminated)
  }

  lemma KillProgressStep(sessions: seq<TaggedSession>, interrupted: bool, i: nat,
                         runs: seq<RetryRun>, flag: bool, killed: bool, r: RetryRun)
    requires KillProgress(sessions, interrupted, i, runs, flag, killed) && i < |sessions|
    requires r == RetryFrom(sessions[i].rounds, 0, flag)
    ensures KillProgress(sessions, interrupted, i + 1, runs + [r], r.interrupted, killed || r.terminated)
  {
    RunsStep(sessions, i, flag);
    var rest := RunsFrom(sessions[i + 1..], r.interrupted);
    assert (runs + [r]) + rest == runs + ([r] + rest);
    var after := runs + [r];
    assert forall j :: 0 <= j < i ==> after[j] == runs[j];
    assert after[i] == r;
  }

  lemma KillProgressDone(sessions: seq<TaggedSession>, interrupted: bool,
                         runs: seq<RetryRun>, flag: bool, killed: bool)
    requires KillProgress(sessions, interrupted, |sessions|, runs, flag, killed)
    ensures runs == RunsFrom(sessions, interrupted)
    ensures flag == RunsFlag(sessions, interrupted)
  {
    assert sessions[|sessions|..] == [];
    assert runs + [] == runs;
  }

  /** The loop of `killProxySession` over the listed sessions: every session gets its own retry
      run, even after an earlier one succeeded, and the result is whether any run succeeded. */
  method KillListed(sessions: seq<TaggedSession>, interrupted: bool) returns (k: KillRun)
    ensures k.runs == RunsFrom(sessions, interrupted)
    ensures |k.runs| == |sessions|
    ensures k.killed <==> exists i :: 0 <= i < |k.runs| && k.runs[i].terminated
    ensures k.interrupted == RunsFlag(sessions, interrupted)
  {
    var runs: seq<RetryRun> := [];
    var killed := false;
    var flag := interrupted;
    var i := 0;
    while i < |sessions|
      invariant KillProgress(sessions, interrupted, i, runs, flag, killed)
    {
      var r := TerminateSessionWithRetry(sessions[i].rounds, flag);
      KillProgressStep(sessions, interrupted, i, runs, flag, killed, r);
      runs, flag, killed := runs + [r], r.interrupted, killed || r.terminated;
      i := i + 1;
    }
    KillProgressDone(sessions, interrupted, runs, flag, killed);
    k := KillRun(killed, runs, flag);
  }

  /** `killProxySession`: `None` when the session lookup raises, which `stop` turns into false. */
  method KillProxySession(query: SessionQuery, interrupted: bool) returns (r: Option<KillRun>)
    ensures r.None? <==> query == QueryRaised
    ensures r.Some? ==> r.value.runs == RunsFrom(query.sessions, interrupted)
    ensures r.Some? ==> (r.value.killed <==> exists i :: 0 <= i < |r.value.runs| && r.value.runs[i].terminated)
    ensures r.Some? && query.sessions == [] ==> !r.value.killed
  {
    match query
    case QueryRaised =>
      r := None;
    case Listed(sessions) =>
      var k := KillListed(sessions, interrupted);
      r := Some(k);
  }

  /** State of the control connection when `stop` is called. */
  datatype Connection = NoConnection | ClosedConnection | OpenConnection

  /** What `stop` did: its result, whether it looked up the tagged sessions, whether it closed the
      control connection, and the retry runs it made. */
  datatype StopRun = StopRun(result: bool, queried: bool, closed: bool, runs: seq<RetryRun>)

  /** `stop`: nothing to do without an open connection; a failing session lookup gives false and
      leaves the connection open; otherwise the kill result is returned after closing. */
  method Stop(conn: Connection, query: SessionQuery, interrupted: bool) returns (s: StopRun)
    ensures conn != OpenConnection ==> s == StopRun(false, false, false, [])
    ensures conn == OpenConnection ==> s.queried
    ensures conn == OpenConnection && query == QueryRaised ==> !s.result && !s.closed && s.runs == []
    ensures conn == OpenConnection && query.Listed? ==>
              s.closed && s.runs == RunsFrom(query.sessions, interrupted) && |s.runs| == |query.sessions|
    ensures s.result <==> conn == OpenConnection && query.Listed? &&
                          exists i :: 0 <= i < |s.runs| && s.runs[i].terminated
  {
    if conn != OpenConnection {
      return StopRun(false, false, false, []);
    }
    var k := KillProxySession(query, interrupted);
    match k
    case None =>
      s := StopRun(false, true, false, []);
    case Some(run) =>
      s := StopRun(run.killed, true, true, run.runs);
  }
}

=== FILE: text.dfy ===
/** Character-level string helpers with the meaning Java gives them in the modelled code. */
module Text {
  import opened Common

  /** `String.trim` strips every leading and trailing char whose code is at most U+0020. */
  predicate IsTrimmable(c: char) {
    c <= ' '
  }

  /** Every char of `s` would be stripped by `trim`. */
  predicate Blank(s: string) {
    forall i :: 0 <= i < |s| ==> IsTrimmable(s[i])
  }

  /** `r` sits in `s` at offset `k` with only trimmable chars on either side. */
  predicate FramedBy(s: string, r: string, k: nat) {
    k + |r| <= |s| && s[k..k + |r|] == r && Blank(s[..k]) && Blank(s[k + |r|..])
  }

  function TrimStart(s: string): (r: string)
    ensures |r| <= |s| && r == s[|s| - |r|..]
    ensures r == [] || !IsTrimmable(r[0])
    ensures forall i :: 0 <= i < |s| - |r| ==> IsTrimmable(s[i])
  {
    if s == [] || !IsTrimmable(s[0]) then s
    else
      var t := TrimStart(s[1..]);
      assert forall i :: 1 <= i < |s| - |t| ==> s[i] == s[1..][i - 1];
      t
  }

  function TrimEnd(s: string): (r: string)
    ensures |r| <= |s| && r == s[..|r|]
    ensures r == [] || !IsTrimmable(r[|r| - 1])
    ensures forall i :: |r| <= i < |s| ==> IsTrimmable(s[i])
  {
    if s == [] || !IsTrimmable(s[|s| - 1]) then s
    else
      var t := TrimEnd(s[..|s| - 1]);
      assert forall i :: |t| <= i < |s| - 1 ==> s[i] == s[..|s| - 1][i];
      t
  }

  /** Java's `String.trim`. */
  function Trim(s: string): (r: string)
    ensures r == [] || (!IsTrimmable(r[0]) && !IsTrimmable(r[|r| - 1]))
    ensures FramedBy(s, r, |s| - |TrimStart(s)|)
  {
    TrimFramed(s);
    TrimEnd(TrimStart(s))
  }

  lemma TrimFramed(s: string)
    ensures FramedBy(s, TrimEnd(TrimStart(s)), |s| - |TrimStart(s)|)
  {
    var a := TrimStart(s);
    FramedBetween(s, a, TrimEnd(a));
  }

  /** `a` is a suffix of `s` after trimmable chars, and `r` a prefix of `a` before trimmable chars. */
  lemma FramedBetween(s: string, a: string, r: string)
    requires |a| <= |s| && a == s[|s| - |a|..] && forall i :: 0 <= i < |s| - |a| ==> IsTrimmable(s[i])
    requires |r| <= |a| && r == a[..|r|] && forall i :: |r| <= i < |a| ==> IsTrimmable(a[i])
    ensures FramedBy(s, r, |s| - |a|)
  {
    var k := |s| - |a|;
    assert s[k..k + |r|] == r by {
      forall i | 0 <= i < |r|
        ensures s[k..k + |r|][i] == r[i]
      {
        assert r[i] == a[i] == s[k + i];
      }
    }
    assert Blank(s[..k]) by {
      forall i | 0 <= i < k
        ensures IsTrimmable(s[..k][i])
      {
      }
    }
    var tail := s[k + |r|..];
    assert Blank(tail) by {
      forall i | 0 <= i < |tail|
        ensures IsTrimmable(tail[i])
      {
        assert tail[i] == a[|r| + i];
      }
    }
  }

  /** A field is empty after `trim` exactly when every char of it is trimmable. */
  lemma TrimEmptyIffBlank(s: string)
    ensures Trim(s) == [] <==> Blank(s)
  {
    var k := |s| - |TrimStart(s)|;
    if Trim(s) == [] {
      assert s == s[..k] + s[k..];
      assert s[k..] == s[k + 0..];
    } else {
      assert s[k] == Trim(s)[0];
    }
  }

  /** `trim` leaves a string alone when neither end is trimmable, so trimming twice is trimming once. */
  lemma TrimKeepsTrimmed(s: string)
    requires s == [] || (!IsTrimmable(s[0]) && !IsTrimmable(s[|s| - 1]))
    ensures Trim(s) == s
    ensures Trim(Trim(s)) == Trim(s)
  {
    assert TrimStart(s) == s;
    assert TrimEnd(s) == s;
  }

  /** Java's `String.length`: UTF-16 code units, so a char above U+FFFF counts twice. */
  function Utf16Length(s: string): (n: nat)
    ensures |s| <= n <= 2 * |s|
  {
    if s == [] then 0 else (if s[0] as int > 0xFFFF then 2 else 1) + Utf16Length(s[1..])
  }

  /** ASCII lower-casing of one char; every other char is left alone. */
  function LowerChar(c: char): char {
    if 'A' <= c <= 'Z' then (c as int + 32) as char else c
  }

  /** ASCII upper-casing of one char; every other char is left alone. */
  function UpperChar(c: char): char {
    if 'a' <= c <= 'z' then (c as int - 32) as char else c
  }

  function Lower(s: string): (r: string)
    ensures |r| == |s|
  {
    seq(|s|, i requires 0 <= i < |s| => LowerChar(s[i]))
  }

  function Upper(s: string): (r: string)
    ensures |r| == |s|
  {
    seq(|s|, i requires 0 <= i < |s| => UpperChar(s[i]))
  }

  /** `n` occurs in `s` starting at index `i`. */
  predicate OccursAt(s: string, n: string, i: nat) {
    i + |n| <= |s| && s[i..i + |n|] == n
  }

  ghost predicate Occurs(s: string, n: string) {
    exists i: nat :: OccursAt(s, n, i)
  }

  /** Leftmost occurrence of `n` in `s` at or after `k`, scanning as `String.indexOf` does. */
  function IndexFrom(s: string, n: string, k: nat): (r: Option<nat>)
    ensures r.Some? ==> k <= r.value && OccursAt(s, n, r.value)
    ensures r.Some? ==> forall j: nat :: k <= j < r.value ==> !OccursAt(s, n, j)
    ensures r.None? ==> forall j: nat :: k <= j ==> !OccursAt(s, n, j)
    decreases |s| - k
  {
    if k + |n| > |s| then None
    else if s[k..k + |n|] == n then Some(k)
    else IndexFrom(s, n, k + 1)
  }

  /** Java's `String.contains`. */
  function Contains(s: string, n: string): (b: bool)
    ensures b <==> Occurs(s, n)
  {
    IndexFrom(s, n, 0).Some?
  }

  /** Java's `String.replace(CharSequence, CharSequence)` with a one-char target: every `c`
      becomes `rep`, in one left-to-right pass. */
  function ReplaceChar(s: string, c: char, rep: string): (r: string)
    ensures c !in s ==> r == s
  {
    if s == [] then [] else (if s[0] == c then rep else [s[0]]) + ReplaceChar(s[1..], c, rep)
  }

  /** Java's `String.startsWith`. */
  predicate StartsWith(s: string, p: string) {
    |p| <= |s| && s[..|p|] == p
  }

  /** Splits `s` at the first `c`: the text before it and the text after it. */
  function SplitFirst(s: string, c: char): (r: Option<(string, string)>)
    ensures r.None? <==> c !in s
    ensures r.Some? ==> s == r.value.0 + [c] + r.value.1 && c !in r.value.0
  {
    if s == [] then None
    else if s[0] == c then Some(([], s[1..]))
    else
      match SplitFirst(s[1..], c)
      case None => None
      case Some(p) => Some(([s[0]] + p.0, p.1))
  }

  lemma {:induction false} SplitFirstAt(a: string, c: char, b: string)
    requires c !in a
    ensures SplitFirst(a + [c] + b, c) == Some((a, b))
    decreases |a|
  {
    var s := a + [c] + b;
    if a == [] {
      assert s == [c] + b;
    } else {
      assert s[0] == a[0] && s[1..] == a[1..] + [c] + b;
      SplitFirstAt(a[1..], c, b);
      assert [a[0]] + a[1..] == a;
    }
  }
}

=== FILE: version.dfy ===
/** Classification of the server's version banner and the choice of JDBC connection string. */
module Version {
  import opened Common
  import opened Text

  /** The four version tags the client distinguishes. */
  datatype Tag = V11g | V12c | V19cPlus | Unknown {
    function Name(): string {
      match this
      case V11g => "11g"
      case V12c => "12c"
      case V19cPlus => "19c+"
      case Unknown => "unknown"
    }
  }

  /** `parseVersion`: a missing banner is unknown; otherwise the lower-cased banner is searched
      for "11g", then "12c", then "19c" or "21c", and the first hit decides. */
  function ParseVersion(banner: Option<string>): Tag {
    match banner
    case None => Unknown
    case Some(b) =>
      var lower := Lower(b);
      if Contains(lower, "11g") then V11g
      else if Contains(lower, "12c") then V12c
      else if Contains(lower, "19c") || Contains(lower, "21c") then V19cPlus
      else Unknown
  }

  /** `parseVersion` returns the tag's name: always one of its four strings, "unknown" for a
      missing banner, and different tags never share a name. */
  lemma ParseVersionNames(banner: Option<string>, other: Tag)
    ensures ParseVersion(banner).Name() in {"11g", "12c", "19c+", "unknown"}
    ensures banner.None? ==> ParseVersion(banner).Name() == "unknown"
    ensures other.Name() == ParseVersion(banner).Name() ==> other == ParseVersion(banner)
  {
  }

  /** `n` (written in lower case) appears in `s` at `i` when ASCII letters of `s` are compared
      without regard to case. */
  ghost predicate MentionsAt(s: string, n: string, i: nat) {
    i + |n| <= |s| && forall k :: 0 <= k < |n| ==> LowerChar(s[i + k]) == n[k]
  }

  ghost predicate Mentions(s: string, n: string) {
    exists i: nat :: MentionsAt(s, n, i)
  }

  lemma OccursInLowerIffMentions(s: string, n: string)
    ensures Occurs(Lower(s), n) <==> Mentions(s, n)
  {
    var l := Lower(s);
    if Occurs(l, n) {
      var i: nat :| OccursAt(l, n, i);
      forall k | 0 <= k < |n|
        ensures LowerChar(s[i + k]) == n[k]
      {
        assert l[i..i + |n|][k] == l[i + k];
      }
      assert MentionsAt(s, n, i);
    }
    if Mentions(s, n) {
      var i: nat :| MentionsAt(s, n, i);
      assert l[i..i + |n|] == n;
      assert OccursAt(l, n, i);
    }
  }

  /** The classification in terms of case-insensitive mentions, with its precedence spelled out:
      a banner mentioning "11g" is 11g whatever else it mentions, and so on down the list. */
  lemma ParseVersionClassifies(b: string)
    ensures ParseVersion(Some(b)) == V11g <==> Mentions(b, "11g")
    ensures ParseVersion(Some(b)) == V12c <==> !Mentions(b, "11g") && Mentions(b, "12c")
    ensures ParseVersion(Some(b)) == V19cPlus <==>
              !Mentions(b, "11g") && !Mentions(b, "12c") && (Mentions(b, "19c") || Mentions(b, "21c"))
    ensures ParseVersion(Some(b)) == Unknown <==>
              !Mentions(b, "11g") && !Mentions(b, "12c") && !Mentions(b, "19c") && !Mentions(b, "21c")
  {
    OccursInLowerIffMentions(b, "11g");
    OccursInLowerIffMentions(b, "12c");
    OccursInLowerIffMentions(b, "19c");
    OccursInLowerIffMentions(b, "21c");
  }

  /** Changing the case of the banner's letters never changes the tag. */
  lemma ParseVersionIgnoresCase(b: string)
    ensures ParseVersion(Some(Upper(b))) == ParseVersion(Some(b))
    ensures ParseVersion(Some(Lower(b))) == ParseVersion(Some(b))
  {
    assert Lower(Upper(b)) == Lower(b) by {
      forall i | 0 <= i < |b|
        ensures Lower(Upper(b))[i] == Lower(b)[i]
      {
      }
    }
    assert Lower(Lower(b)) == Lower(b);
  }

  /** A banner naming both a 21c and an 11g release is classified 11g. */
  lemma ElevenGWinsOverTwentyOneC()
    ensures ParseVersion(Some("21c, 11G")) == V11g
  {
    var b := "21c, 11G";
    ParseVersionClassifies(b);
    assert LowerChar(b[5]) == '1' && LowerChar(b[6]) == '1' && LowerChar(b[7]) == 'g';
    assert MentionsAt(b, "11g", 5);
  }

  /** A 19c banner is classified 19c+. */
  lemma NineteenCBanner()
    ensures ParseVersion(Some("19c")) == V19cPlus
  {
    var b := "19c";
    assert Lower(b) == b by {
      forall k | 0 <= k < |b| ensures Lower(b)[k] == b[k] { }
    }
    assert OccursAt(b, "19c", 0);
    forall i: nat
      ensures !OccursAt(b, "11g", i) && !OccursAt(b, "12c", i)
    {
      if i == 0 {
        assert b[0..3][1] == '9';
      }
    }
  }

  /** The two connection-string shapes of the thin driver. */
  datatype UrlForm = SidForm | ServiceNameForm

  const UrlPrefix: string := "jdbc:oracle:thin:@"

  /** A version starting with "11g" always uses the SID form; otherwise the naming flag decides. */
  function FormFor(version: string, isServiceName: bool): UrlForm {
    if StartsWith(version, "11g") then SidForm
    else if isServiceName then ServiceNameForm
    else SidForm
  }

  /** `buildJdbcUrl`: `@host:port:service` or `@//host:port/service`. */
  function BuildJdbcUrl(host: string, port: string, service: string, version: string,
                        isServiceName: bool): (url: string)
    ensures StartsWith(url, UrlPrefix)
  {
    match FormFor(version, isServiceName)
    case SidForm => UrlPrefix + host + ":" + port + ":" + service
    case ServiceNameForm => UrlPrefix + "//" + host + ":" + port + "/" + service
  }

  /** Connection parameters as read back from a connection string. */
  datatype Target = Target(form: UrlForm, host: string, port: string, service: string)

  /** Reads a connection string of either shape; the host and port end at the first separator. */
  function ParseJdbcUrl(url: string): Option<Target> {
    if !StartsWith(url, UrlPrefix) then None
    else
      var body := url[|UrlPrefix|..];
      if StartsWith(body, "//") then
        match SplitFirst(body[2..], ':')
        case None => None
        case Some(hp) =>
          match SplitFirst(hp.1, '/')
          case None => None
          case Some(ps) => Some(Target(ServiceNameForm, hp.0, ps.0, ps.1))
      else
        match SplitFirst(body, ':')
        case None => None
        case Some(hp) =>
          match SplitFirst(hp.1, ':')
          case None => None
          case Some(ps) => Some(Target(SidForm, hp.0, ps.0, ps.1))
  }

  lemma SidUrlRoundTrip(host: string, port: string, service: string)
    requires ':' !in host && '/' !in host && ':' !in port
    ensures ParseJdbcUrl(UrlPrefix + host + ":" + port + ":" + service)
            == Some(Target(SidForm, host, port, service))
  {
    var url := UrlPrefix + host + ":" + port + ":" + service;
    var body := host + [':'] + (port + [':'] + service);
    assert url == UrlPrefix + body;
    assert url[|UrlPrefix|..] == body;
    assert body[0] != '/' by {
      if host != [] { assert body[0] == host[0]; } else { assert body[0] == ':'; }
    }
    assert !StartsWith(body, "//");
    SplitFirstAt(host, ':', port + [':'] + service);
    SplitFirstAt(port, ':', service);
  }

  lemma ServiceUrlRoundTrip(host: string, port: string, service: string)
    requires ':' !in host && '/' !in port
    ensures ParseJdbcUrl(UrlPrefix + "//" + host + ":" + port + "/" + service)
            == Some(Target(ServiceNameForm, host, port, service))
  {
    var url := UrlPrefix + "//" + host + ":" + port + "/" + service;
    var rest := host + [':'] + (port + ['/'] + service);
    var body := "//" + rest;
    assert url == UrlPrefix + body;
    assert url[|UrlPrefix|..] == body;
    assert StartsWith(body, "//");
    assert body[2..] == rest;
    SplitFirstAt(host, ':', port + ['/'] + service);
    SplitFirstAt(port, '/', service);
  }

  /** The string built for a host and port free of separators reads back as the same host, port,
      service and form. */
  lemma JdbcUrlRoundTrip(host: string, port: string, service: string, version: string,
                         isServiceName: bool)
    requires ':' !in host && '/' !in host && ':' !in port && '/' !in port
    ensures ParseJdbcUrl(BuildJdbcUrl(host, port, service, version, isServiceName))
            == Some(Target(FormFor(version, isServiceName), host, port, service))
  {
    if FormFor(version, isServiceName) == SidForm {
      SidUrlRoundTrip(host, port, service);
    } else {
      ServiceUrlRoundTrip(host, port, service);
    }
  }

  /** The client always calls `buildJdbcUrl("unknown")`, so the naming flag alone picks the form. */
  lemma ConnectUrlFollowsFlag(isServiceName: bool)
    ensures FormFor("unknown", isServiceName) == (if isServiceName then ServiceNameForm else SidForm)
  {
    assert "unknown"[..3][0] == 'u';
  }
}
